=== FILE: README.md ===
# Tile editor editing core, modelled in Dafny

This project models two editing engines of the tile editor.

**The grid presenter** (`GridPresenter`, grid_presenter.dfy) handles the grid of the selected layer.
- The grid is a `map<Key, Cell>`.
- A paint session is an optional batch `map<Key, Option<Cell>>` (`oldCells`). `onPaintBegin` opens it. `onPaint` records in it the cell value each write overwrote. `onPaintEnd` submits it as one operation when it is not empty. The history's DONE notification for that operation is a separate input (`OnHistory`), so ending a session never moves the undo/redo position by itself.
- Tile selection is a toggle: selecting the current index again deselects it.
- An undo/redo position counter drives the dirty flag. The view hears `setDirty` only when the counter's zero/non-zero state flips. History events from other undo contexts are ignored.
- Load and save reset the counter. The `loading` flag suppresses property-change handling while a load runs.

The presenter is an immutable record. Each handler is a pure transition. Every view call is appended to an event trace, and every submitted operation to a list of batches.

**The tile set node** (`TileSetNode`, tile_set_node.dfy) turns an image and tiling parameters into derived data.
- It validates tile width, height and margin against the loaded images. A loaded image is `Option<Image>`, known by its dimensions.
- Its setters are change-guarded and recompute the convex hulls.
- Recomputation reconciles the per-tile collision group store (`seq<Option<string>>`). On the extraction path the store only grows. A separate visible count hides the slots past the current tile count.
- The store projects to an id list (`getTileCollisionGroups`). An id list resolves against the defined collision groups (`setTileCollisionGroups`).
- Hull extraction is foreign code. It is a function parameter from the collision image and tiling parameters to hulls and points.

Three more modules support the node.
- `TileSetChildren` (tile_set_children.dfy) holds the child comparator (animations before collision groups, then by id), a sort, and the binary-search lookup of a group by id.
- `JavaStrings` (java_strings.dfy) holds Java's `String.compareTo`.
- `JavaInts` (java_ints.dfy) holds Java's 32-bit `int` addition.

## Model

| member | source | states |
|---|---|---|
| GridPresenter.Init | com.dynamo.cr.tileeditor/src/com/dynamo/cr/tileeditor/core/GridPresenter.java:61-78 | a new presenter is clean, not loading, has no paint session and no submissions, selects tile -1 with both flips off, and holds the given grid and undo context |
| GridPresenter.IsDirty | com.dynamo.cr.tileeditor/src/com/dynamo/cr/tileeditor/core/GridPresenter.java:300-302 | the editor is dirty exactly when the undo/redo position is not zero; what that position means is stated by GridPresenter.DirtyIffHistoryUnbalanced |
| GridPresenter.Implied | com.dynamo.cr.tileeditor/src/com/dynamo/cr/tileeditor/core/GridPresenter.java:192-195 | painting a negative tile index erases; otherwise it writes a cell with the selection's index and flip flags |
| GridPresenter.Write | com.dynamo.cr.tileeditor/src/com/dynamo/cr/tileeditor/core/GridPresenter.java:198 | setting a cell changes that key only; setting null empties the key |
| GridPresenter.SetUndoRedoCounter | com.dynamo.cr.tileeditor/src/com/dynamo/cr/tileeditor/core/GridPresenter.java:106-115 | the counter is stored first; setDirty is sent only when the zero/non-zero state flips, and it carries the new dirty state |
| GridPresenter.HistoryNotification | com.dynamo.cr.tileeditor/src/com/dynamo/cr/tileeditor/core/GridPresenter.java:305-320 | events of other undo contexts change nothing (trace included); DONE and REDONE add 1, UNDONE subtracts 1, other types do nothing |
| GridPresenter.ReplayMovesCounterByDisplacement | com.dynamo.cr.tileeditor/src/com/dynamo/cr/tileeditor/core/GridPresenter.java:311-319 | any event sequence moves the counter by its net displacement and changes nothing but counter and trace |
| GridPresenter.DirtyIffHistoryUnbalanced | com.dynamo.cr.tileeditor/src/com/dynamo/cr/tileeditor/core/GridPresenter.java:300-319 | from a clean editor, isDirty after any history is true exactly when the events of its own undo context do not cancel out |
| GridPresenter.ForeignHistoryIgnored | com.dynamo.cr.tileeditor/src/com/dynamo/cr/tileeditor/core/GridPresenter.java:305-309 | a sequence of events from other undo contexts leaves the presenter and its view trace unchanged |
| GridPresenter.RepeatedEvents | com.dynamo.cr.tileeditor/src/com/dynamo/cr/tileeditor/core/GridPresenter.java:312-318 | n scoped DONE or REDONE events raise the counter by n; n UNDONE events lower it by n |
| GridPresenter.DoneThenUndoneReturnsClean | com.dynamo.cr.tileeditor/src/com/dynamo/cr/tileeditor/core/GridPresenter.java:300-319 | from clean, n DONE then n UNDONE is clean again; n DONE then n-1 UNDONE is dirty |
| GridPresenter.SelectTile | com.dynamo.cr.tileeditor/src/com/dynamo/cr/tileeditor/core/GridPresenter.java:159-166 | selecting the current index stores -1, any other index is stored as given; flips always come from the arguments; the view is told the stored selection |
| GridPresenter.SelectTwiceDeselects | com.dynamo.cr.tileeditor/src/com/dynamo/cr/tileeditor/core/GridPresenter.java:160-163 | selecting any index other than the current one twice ends deselected (-1), whatever the index |
| GridPresenter.PaintBegin | com.dynamo.cr.tileeditor/src/com/dynamo/cr/tileeditor/core/GridPresenter.java:184-186 | opens a session with an empty batch, replacing any open one; nothing else changes |
| GridPresenter.Paint | com.dynamo.cr.tileeditor/src/com/dynamo/cr/tileeditor/core/GridPresenter.java:189-204 | without a session, or when the cell already equals the implied cell, nothing changes; otherwise the implied cell is written at that key only, the overwritten value is put in the batch (replacing an earlier entry), and the view is told |
| GridPresenter.PaintEnd | com.dynamo.cr.tileeditor/src/com/dynamo/cr/tileeditor/core/GridPresenter.java:207-212 | a non-empty batch is submitted as exactly one operation and the session closed; an empty batch or no session changes nothing, so an empty session stays open; the DONE notification that executing the operation triggers is a separate history input, so PaintEnd itself never moves the counter |
| GridPresenter.PaintKeepsSessionFaithful | com.dynamo.cr.tileeditor/src/com/dynamo/cr/tileeditor/core/GridPresenter.java:196-201 | one paint keeps the session invariant: batch values are the begin values and differ from the implied cell, batch keys hold the implied cell, other keys hold their begin values |
| GridPresenter.PaintsKeepSessionFaithful | com.dynamo.cr.tileeditor/src/com/dynamo/cr/tileeditor/core/GridPresenter.java:185-202 | with the selection fixed, any paint sequence keeps that invariant; the batch keys are exactly the painted keys whose begin value differed from the implied cell |
| GridPresenter.UndoRestoresBegin | com.dynamo.cr.tileeditor/src/com/dynamo/cr/tileeditor/core/GridPresenter.java:196-209 | writing the batch's values back over the current grid gives exactly the grid of the session's beginning |
| GridPresenter.RedoGivesEnd | com.dynamo.cr.tileeditor/src/com/dynamo/cr/tileeditor/core/GridPresenter.java:196-209 | writing the implied cell at the batch's keys over the beginning grid gives exactly the current grid |
| GridPresenter.EmptyBatchIffUnchanged | com.dynamo.cr.tileeditor/src/com/dynamo/cr/tileeditor/core/GridPresenter.java:197-208 | within a session the batch is empty exactly when the grid is back at its beginning |
| GridPresenter.SessionIsOneReversibleOperation | com.dynamo.cr.tileeditor/src/com/dynamo/cr/tileeditor/core/GridPresenter.java:184-212 | begin, any paints, end submits exactly one operation iff the grid changed; that batch undoes to the begin grid and redoes to the end grid; with no change nothing is submitted and the session stays open |
| GridPresenter.SelectionChangeMidStrokeLosesBeginValue | com.dynamo.cr.tileeditor/src/com/dynamo/cr/tileeditor/core/GridPresenter.java:201 | because put overwrites, a key painted again after a mid-stroke selection change holds the intermediate value in the batch, not the begin value |
| GridPresenter.RebeginDropsEarlierWrites | com.dynamo.cr.tileeditor/src/com/dynamo/cr/tileeditor/core/GridPresenter.java:185 | a second onPaintBegin drops the open batch, so earlier writes stay in the grid and are never submitted |
| GridPresenter.PropertyChange | com.dynamo.cr.tileeditor/src/com/dynamo/cr/tileeditor/core/GridPresenter.java:119-126 | ignored while loading; otherwise the view is updated |
| GridPresenter.ChangesWhileLoadingIgnored | com.dynamo.cr.tileeditor/src/com/dynamo/cr/tileeditor/core/GridPresenter.java:119-121 | any number of property changes while loading leave the presenter unchanged |
| GridPresenter.Load | com.dynamo.cr.tileeditor/src/com/dynamo/cr/tileeditor/core/GridPresenter.java:215-221 | after onLoad the grid is the loaded one, the loading flag is off, the editor is clean and the last view call is the refresh; nothing but grid, counter, loading flag and view trace changes, so the undo context, session, selection and submissions are kept |
| GridPresenter.LoadResetsAndSuppressesChanges | com.dynamo.cr.tileeditor/src/com/dynamo/cr/tileeditor/core/GridPresenter.java:215-221 | after onLoad the grid is the loaded one and the counter is 0; the view saw only setDirty(false) (if it was dirty) and the refresh, none of the load's property changes; every other field is kept |
| GridPresenter.Save | com.dynamo.cr.tileeditor/src/com/dynamo/cr/tileeditor/core/GridPresenter.java:224-227 | when the document is written, onSave resets the counter to 0, telling the view only if it was dirty, and nothing else changes; when the model's save throws, the reset is skipped and the presenter is unchanged |
| GridPresenter.ShownDirtyAppend | com.dynamo.cr.tileeditor/src/com/dynamo/cr/tileeditor/core/GridPresenter.java:113 | the dirty state shown by the view changes only with a setDirty call |
| GridPresenter.SetCounterKeepsSync | com.dynamo.cr.tileeditor/src/com/dynamo/cr/tileeditor/core/GridPresenter.java:106-115 | if the view showed the old dirty state, it shows the new one after the counter is set |
| GridPresenter.StepKeepsViewInSync | com.dynamo.cr.tileeditor/src/com/dynamo/cr/tileeditor/core/GridPresenter.java:106-319 | every handler keeps the view's last setDirty value equal to isDirty |
| GridPresenter.RunKeepsViewInSync | com.dynamo.cr.tileeditor/src/com/dynamo/cr/tileeditor/core/GridPresenter.java:106-319 | any sequence of handler calls keeps the view's dirty state in sync |
| GridPresenter.ViewAlwaysShowsDirtiness | com.dynamo.cr.tileeditor/src/com/dynamo/cr/tileeditor/core/GridPresenter.java:300-302 | from construction on, the dirty state the view shows is always "counter is non-zero" |
| TileSetNode.Init | com.dynamo.cr.tileeditor/src/com/dynamo/cr/tileeditor/scene/TileSetNode.java:39-83 | a new node has empty paths and tag, zero tiling values, no loaded images, no children, an empty group store, no visible slots, no hulls and no points |
| TileSetNode.InitUpToDate | com.dynamo.cr.tileeditor/src/com/dynamo/cr/tileeditor/scene/TileSetNode.java:39-83 | a new node is not valid, and its empty derived data is what recomputation gives it |
| TileSetNode.MeasuredImage | com.dynamo.cr.tileeditor/src/com/dynamo/cr/tileeditor/scene/TileSetNode.java:348-356 | tile dimensions are measured against the colour image when loaded, else the collision image |
| TileSetNode.VerifyImageDimensions | com.dynamo.cr.tileeditor/src/com/dynamo/cr/tileeditor/scene/TileSetNode.java:333-344 | an error iff both images are loaded and differ in width or height; the error carries both dimension pairs |
| TileSetNode.VerifyTileDimensions | com.dynamo.cr.tileeditor/src/com/dynamo/cr/tileeditor/scene/TileSetNode.java:346-373 | OK with no image; otherwise a width error iff the width is checked and width+margin exceeds the image width, a height error iff no width error and the height is checked and height+margin exceeds the image height |
| TileSetNode.ValidateImages | com.dynamo.cr.tileeditor/src/com/dynamo/cr/tileeditor/scene/TileSetNode.java:95-104 | both paths empty gives the INFO status; otherwise an image-size mismatch returns the image-dimension status itself, carrying both pairs, before any tile check; otherwise the width+height tile check decides |
| TileSetNode.ValidateImagesOkMeansTilesFit | com.dynamo.cr.tileeditor/src/com/dynamo/cr/tileeditor/scene/TileSetNode.java:95-104 | the shared image/collision validation is OK iff a path is set, the images agree, and a tile plus margin fits the measured image on both axes |
| TileSetNode.ValidateImage | com.dynamo.cr.tileeditor/src/com/dynamo/cr/tileeditor/scene/TileSetNode.java:95-104 | validateImage is OK exactly when a path is set, the loaded images agree and a tile plus margin fits; otherwise it returns, in this order, INFO on the image property when both paths are empty, the image-dimension error, or the tile-dimension error |
| TileSetNode.ValidateCollision | com.dynamo.cr.tileeditor/src/com/dynamo/cr/tileeditor/scene/TileSetNode.java:180-189 | validateCollision accepts exactly what validateImage accepts and reports in the same order: INFO on the collision property when both paths are empty, then the image-dimension error, then the tile-dimension error |
| TileSetNode.ValidateTileWidth | com.dynamo.cr.tileeditor/src/com/dynamo/cr/tileeditor/scene/TileSetNode.java:121-123 | OK iff no image or width+margin fits; the height plays no part |
| TileSetNode.ValidateTileHeight | com.dynamo.cr.tileeditor/src/com/dynamo/cr/tileeditor/scene/TileSetNode.java:136-138 | OK iff no image or height+margin fits; the width plays no part |
| TileSetNode.ValidateTileMargin | com.dynamo.cr.tileeditor/src/com/dynamo/cr/tileeditor/scene/TileSetNode.java:151-156 | a margin of 0 or less is always OK; a positive margin is OK iff a tile plus margin fits on both axes |
| TileSetNode.Valid | com.dynamo.cr.tileeditor/src/com/dynamo/cr/tileeditor/scene/TileSetNode.java:38-64 | a node is valid exactly when the images fit, width and height are at least 1, margin and spacing at least 0, and the material tag is not empty |
| TileSetNode.ValidCollisionImageFits | com.dynamo.cr.tileeditor/src/com/dynamo/cr/tileeditor/scene/TileSetNode.java:41-63 | a valid node's collision image matches the colour image in size, a tile plus margin fits it, and the range bounds hold |
| TileSetNode.CalculateTileCount | com.dynamo.cr.tileeditor/src/com/dynamo/cr/tileeditor/scene/TileSetNode.java:431-447 | 0 when no image with positive dimensions is loaded; otherwise tiles per row times tiles per column of the measured image |
| TileSetNode.VisibleCountIsTileCount | com.dynamo.cr.tileeditor/src/com/dynamo/cr/tileeditor/scene/TileSetNode.java:381-396 | when the extraction finds one hull per tile as the per-axis count gives them, the recomputation shows exactly calculateTileCount slots |
| TileSetNode.Grow | com.dynamo.cr.tileeditor/src/com/dynamo/cr/tileeditor/scene/TileSetNode.java:392-394 | the store becomes max(old length, n) long; old slots are kept and new slots are empty |
| TileSetNode.UpdateConvexHulls | com.dynamo.cr.tileeditor/src/com/dynamo/cr/tileeditor/scene/TileSetNode.java:379-406 | with a model, a valid configuration and a collision image: the extraction's hulls and points, visible count n, store grown to max(old, n) with old slots kept; otherwise hulls and points empty, visible count 0, store untouched |
| TileSetNode.UpdateConvexHullsIdempotent | com.dynamo.cr.tileeditor/src/com/dynamo/cr/tileeditor/scene/TileSetNode.java:387-405 | recomputing twice gives the same node as recomputing once |
| TileSetNode.GetTileCollisionGroups | com.dynamo.cr.tileeditor/src/com/dynamo/cr/tileeditor/scene/TileSetNode.java:239-254 | exactly visible-count ids, "" for an empty slot or one past the store's end |
| TileSetNode.SetTileCollisionGroups | com.dynamo.cr.tileeditor/src/com/dynamo/cr/tileeditor/scene/TileSetNode.java:256-271 | each id maps to the defined group with exactly that id, or none; without recomputation the store is exactly that list and nothing is visible; with it, the store is that list grown with empty slots to max(input length, tile count), the tile count is visible and hulls and points are the extraction's; configuration and children are kept |
| TileSetNode.SetThenGetTileCollisionGroups | com.dynamo.cr.tileeditor/src/com/dynamo/cr/tileeditor/scene/TileSetNode.java:239-271 | writing an id list of the tile count and reading it back gives each id that names a defined group, and "" for the others |
| TileSetNode.WithTiling | com.dynamo.cr.tileeditor/src/com/dynamo/cr/tileeditor/scene/TileSetNode.java:125-172 | setting one tiling property changes that property only: every other configuration field, the other tiling fields included, is kept |
| TileSetNode.SetTiling | com.dynamo.cr.tileeditor/src/com/dynamo/cr/tileeditor/scene/TileSetNode.java:125-174 | the current value changes nothing; a new value changes only that configuration field, keeps the children and recomputes the derived data from the new configuration; the store keeps its slots |
| TileSetNode.LoadImage | com.dynamo.cr.tileeditor/src/com/dynamo/cr/tileeditor/scene/TileSetNode.java:299-319 | an empty path, or a node without a scene model, loads no image; otherwise the node gets what the loader yields for the path |
| TileSetNode.SetImage | com.dynamo.cr.tileeditor/src/com/dynamo/cr/tileeditor/scene/TileSetNode.java:106-115 | the current path changes nothing; a new path changes only the path and the loaded image (none when empty), keeps the children, and recomputes from the new configuration |
| TileSetNode.SetCollision | com.dynamo.cr.tileeditor/src/com/dynamo/cr/tileeditor/scene/TileSetNode.java:191-200 | the current path changes nothing; a new path changes only the collision path and the loaded collision image (none when empty), keeps the children, and recomputes from the new configuration |
| TileSetNode.SetMaterialTag | com.dynamo.cr.tileeditor/src/com/dynamo/cr/tileeditor/scene/TileSetNode.java:206-208 | stores the tag without a guard and without recomputing: every other configuration field, the children and the derived data stay as they were |
| TileSetNode.AddChild | com.dynamo.cr.tileeditor/src/com/dynamo/cr/tileeditor/scene/TileSetNode.java:210-213 | after a child is added, the children are the old ones plus the new one, in comparator order |
| TileSetNode.ReconfigureRoundTrip | com.dynamo.cr.tileeditor/src/com/dynamo/cr/tileeditor/scene/TileSetNode.java:387-405 | recomputing under any other configuration and then under the original one shows the original ids, hulls and points; slots a smaller count hid are shown again |
| TileSetNode.TilingRevertRestoresGroups | com.dynamo.cr.tileeditor/src/com/dynamo/cr/tileeditor/scene/TileSetNode.java:389-396 | changing a tiling property and changing it back restores the visible group ids, hulls and points |
| TileSetNode.StoreExtendsTransitive | com.dynamo.cr.tileeditor/src/com/dynamo/cr/tileeditor/scene/TileSetNode.java:389-394 | growing the store twice is growing it once |
| TileSetNode.StoreOnlyGrows | com.dynamo.cr.tileeditor/src/com/dynamo/cr/tileeditor/scene/TileSetNode.java:389-394 | any sequence of setter calls, child additions and recomputations keeps every store slot and never shortens the store |
| TileSetNode.VerifyTileDimensionsAsWritten | com.dynamo.cr.tileeditor/src/com/dynamo/cr/tileeditor/scene/TileSetNode.java:357-370 | the check with Java int sums on every input, overflowing ones included: width first against the wrapped width sum, then height against the wrapped height sum, with the wrapped sums as payloads; it agrees with the exact check whenever the sums do not overflow |
| TileSetNode.TileWidthOverflowPassesCheck | com.dynamo.cr.tileeditor/src/com/dynamo/cr/tileeditor/scene/TileSetNode.java:358-359 | tile width 2^31-1 with margin 1 passes the check as written on a 64-pixel image; the exact check rejects it |
| TileSetChildren.Compare | com.dynamo.cr.tileeditor/src/com/dynamo/cr/tileeditor/scene/TileSetNode.java:459-478 | an animation is less than a collision group; children of one family compare by String.compareTo of their ids |
| TileSetChildren.CompareAntisymmetric | com.dynamo.cr.tileeditor/src/com/dynamo/cr/tileeditor/scene/TileSetNode.java:462-474 | swapping the operands negates the comparison |
| TileSetChildren.CompareZeroIffEqual | com.dynamo.cr.tileeditor/src/com/dynamo/cr/tileeditor/scene/TileSetNode.java:462-474 | the comparator returns 0 exactly for equal children |
| TileSetChildren.CompareTransitive | com.dynamo.cr.tileeditor/src/com/dynamo/cr/tileeditor/scene/TileSetNode.java:462-474 | the comparator's order is transitive |
| TileSetChildren.Insert | com.dynamo.cr.tileeditor/src/com/dynamo/cr/tileeditor/scene/TileSetNode.java:459-478 | inserting into a sorted list keeps it sorted and adds exactly the new child |
| TileSetChildren.InsertFrontSorted | com.dynamo.cr.tileeditor/src/com/dynamo/cr/tileeditor/scene/TileSetNode.java:459-478 | a child not greater than a sorted list's head can go in front of it |
| TileSetChildren.InsertBehindSorted | com.dynamo.cr.tileeditor/src/com/dynamo/cr/tileeditor/scene/TileSetNode.java:459-478 | a sorted list's head can go in front of the sorted rest with a greater child inserted |
| TileSetChildren.SortChildren | com.dynamo.cr.tileeditor/src/com/dynamo/cr/tileeditor/scene/TileSetNode.java:459-478 | the result is sorted by the comparator and a permutation of the children |
| TileSetChildren.SortedPermutationUnique | com.dynamo.cr.tileeditor/src/com/dynamo/cr/tileeditor/scene/TileSetNode.java:459-478 | two sorted orderings of the same children are equal, so the result does not depend on the sort algorithm |
| TileSetChildren.SortedHeadsAgree | com.dynamo.cr.tileeditor/src/com/dynamo/cr/tileeditor/scene/TileSetNode.java:459-478 | two sorted orderings of the same children start with the same child |
| TileSetChildren.TailsSameMultiset | com.dynamo.cr.tileeditor/src/com/dynamo/cr/tileeditor/scene/TileSetNode.java:459-478 | removing equal heads from equal multisets leaves equal multisets |
| TileSetChildren.SortedAnimationsFirst | com.dynamo.cr.tileeditor/src/com/dynamo/cr/tileeditor/scene/TileSetNode.java:463-473 | in sorted children every animation precedes every collision group, and one family is in id order |
| TileSetChildren.CollisionGroups | com.dynamo.cr.tileeditor/src/com/dynamo/cr/tileeditor/scene/TileSetNode.java:215-223 | exactly the collision-group children, each as often as among the children |
| TileSetChildren.CollisionGroupsAppend | com.dynamo.cr.tileeditor/src/com/dynamo/cr/tileeditor/scene/TileSetNode.java:215-223 | the filter distributes over concatenation, so the groups come in child order |
| TileSetChildren.CollisionGroupsSingle | com.dynamo.cr.tileeditor/src/com/dynamo/cr/tileeditor/scene/TileSetNode.java:215-223 | no children give no groups; a single child is kept exactly when it is a collision group |
| TileSetChildren.Ids | com.dynamo.cr.tileeditor/src/com/dynamo/cr/tileeditor/scene/TileSetNode.java:248 | the ids of the given children, in order |
| TileSetChildren.SortedGroups | com.dynamo.cr.tileeditor/src/com/dynamo/cr/tileeditor/scene/TileSetNode.java:259-260 | the collision groups sorted by the comparator: a sorted permutation of getCollisionGroups |
| TileSetChildren.SortedGroupIds | com.dynamo.cr.tileeditor/src/com/dynamo/cr/tileeditor/scene/TileSetNode.java:259-260 | the ids of the defined collision groups, sorted, and a permutation of the groups' ids, each as often as its group occurs |
| TileSetChildren.IdsSameMultiset | com.dynamo.cr.tileeditor/src/com/dynamo/cr/tileeditor/scene/TileSetNode.java:259-260 | sorting keeps the multiset of ids: permuted children have permuted ids |
| TileSetChildren.BinarySearch | com.dynamo.cr.tileeditor/src/com/dynamo/cr/tileeditor/scene/TileSetNode.java:262 | Collections.binarySearch with its midpoint of the inclusive bounds: on sorted ids, a non-negative result is an index holding the key; a negative result means no index holds it |
| TileSetChildren.BelowMidMisses | com.dynamo.cr.tileeditor/src/com/dynamo/cr/tileeditor/scene/TileSetNode.java:262 | when the middle id is below the key, no id up to the middle is the key |
| TileSetChildren.AboveMidMisses | com.dynamo.cr.tileeditor/src/com/dynamo/cr/tileeditor/scene/TileSetNode.java:262 | when the middle id is above the key, no id from the middle on is the key |
| TileSetChildren.Resolve | com.dynamo.cr.tileeditor/src/com/dynamo/cr/tileeditor/scene/TileSetNode.java:262-267 | an id resolves to a group with exactly that id when one is defined, and to none otherwise |
| JavaStrings.Compare | com.dynamo.cr.tileeditor/src/com/dynamo/cr/tileeditor/scene/TileSetNode.java:473 | at the first index where two strings differ, the difference of those characters; when one is a prefix of the other, the difference of the lengths |
| JavaStrings.CompareAntisymmetric | com.dynamo.cr.tileeditor/src/com/dynamo/cr/tileeditor/scene/TileSetNode.java:473 | String.compareTo with its operands swapped gives the negated result |
| JavaStrings.CompareZeroIffEqual | com.dynamo.cr.tileeditor/src/com/dynamo/cr/tileeditor/scene/TileSetNode.java:473 | String.compareTo is 0 exactly for equal strings |
| JavaStrings.CompareTransitive | com.dynamo.cr.tileeditor/src/com/dynamo/cr/tileeditor/scene/TileSetNode.java:473 | the order String.compareTo induces is transitive |
| JavaStrings.CompareStrictTransitive | com.dynamo.cr.tileeditor/src/com/dynamo/cr/tileeditor/scene/TileSetNode.java:473 | a <= b and b < c give a < c |
| JavaStrings.CompareTotal | com.dynamo.cr.tileeditor/src/com/dynamo/cr/tileeditor/scene/TileSetNode.java:473 | any two strings are ordered one way or the other |
| JavaInts.Wrap32 | com.dynamo.cr.tileeditor/src/com/dynamo/cr/tileeditor/scene/TileSetNode.java:358 | the int result is congruent to the exact value modulo 2^32 and equals it when it is in range |
| JavaInts.Add32 | com.dynamo.cr.tileeditor/src/com/dynamo/cr/tileeditor/scene/TileSetNode.java:358 | int addition equals the exact sum when it is in range, wraps down by 2^32 past the maximum and up by 2^32 below the minimum |

## Findings

| source | as written | input that shows it | evidently intended | confidence | as-written member | corrected member |
|---|---|---|---|---|---|---|
| com.dynamo.cr.tileeditor/src/com/dynamo/cr/tileeditor/scene/TileSetNode.java:358-359 | `tileWidth + tileMargin` is an int sum that wraps past 2^31-1 before it is compared with the image width (the same holds for the height at 365-366) | tileWidth = 2147483647, tileMargin = 1, a 64x64 image: the sum wraps to -2147483648 and the tile width is accepted | reject any tile whose width plus margin exceeds the image width | low; not executed (the property editor may never produce such a value) | TileSetNode.VerifyTileDimensionsAsWritten, TileSetNode.TileWidthOverflowPassesCheck | TileSetNode.VerifyTileDimensions |

`TileSetNode.VerifyTileDimensions` compares the exact sums.

## Where the model follows the code over a tidier design

- `put` in `onPaint` overwrites an existing batch entry. With a fixed selection a key is never overwritten twice. After a mid-stroke selection change the batch can hold an intermediate value (`GridPresenter.SelectionChangeMidStrokeLosesBeginValue`).
- A second `onPaintBegin` silently replaces the open batch (`GridPresenter.RebeginDropsEarlierWrites`).
- `onPaintEnd` with an empty batch leaves the session open, because the batch is only cleared in the non-empty branch.
- `setTileCollisionGroups` replaces the store with a list as long as its input. This can shorten the store. Only the recomputation that follows grows it back, and the slots it adds are empty.
- `setMaterialTag` does not recompute the hulls, although the material tag is part of validity.

## Left out

- Preview camera (`onPreviewPan`, `onPreviewZoom`, `onPreviewFrame`, `onPreviewResetZoom`): floating-point view arithmetic. Framing uses `Math.max` of the two axis ratios, not the minimum.
- View fan-out of `propertyChange` and of `refresh`: UI dispatch. A handled property change is one `PropertiesChanged` call and a refresh is one `Refreshed` call.
- `onAddLayer`, `onRemoveLayer`, `onSelectLayer`, `onRefresh`, `onResourceChanged`: layer operations and resource handling live in classes that are not part of this model.
- `SetCellsOperation` is not part of this model. A submitted operation is its batch. `GridPresenter.ApplyBatch` defines what undoing and redoing a batch means.
- Layers: the model holds the selected layer's cells only. The layer index sent with `setCell` and the case of no selected layer are not modelled.
- `Layer.toCellIndex`, `toCellX`, `toCellY` are not part of this model. A cell key is an `int`.
- GridPresenter.HistoryNotification: the counter is an unbounded integer. Java's `int` would wrap only after 2^31 net steps.
- Undo contexts: an operation "has" a context when the context is in its set. `IUndoContext.matches` is not modelled.
- Image loading and reload (`loadImageFile`, `updateImage`, `updateCollision`, `handleReload`, `setModel`, `TextureHandle`): I/O. The loader is a parameter from path to optional image.
- `TileSetUtil.calculateConvexHulls` and `TileSetUtil.calculateTileCount` are foreign. Both are function parameters. An image is known only by its dimensions, so hulls depend on the image only through them.
- TileSetNode.CalculateTileCount: the product of the two axis counts is not wrapped to 32 bits.
- TileSetNode.Valid: validation, and so the recomputation's choice of path in `TileSetNode.UpdateConvexHulls`, uses the exact sums of `TileSetNode.VerifyTileDimensions`. On a tile size plus margin past 2^31-1 the source would validate with the wrapped sum (see Findings), and the model differs from it there.
- TileSetNode.Valid: the framework's `validate()` is taken to be OK exactly when every property validator of the node is OK and the `@Range` and `@NotEmpty` bounds hold. The `@Resource` existence check of the property framework is not part of this model.
- Collision group assignments are kept as group ids, not node references. Renaming a group after assignment is not modelled. `CollisionGroupNode`'s natural order is assumed to be id order.
- JavaStrings.Compare works on Dafny characters (Unicode scalar values), not UTF-16 code units. The two orders differ only for characters outside the Basic Multilingual Plane.
- `getChildId` returns null for other kinds of child. The model has only animations and collision groups.
- Status message formatting (`NLS.bind`, `ValidatorUtil`), getters, `init`/`dispose` and listener registration.

=== FILE: grid_presenter.dfy ===
/** The grid editor's presenter: tile selection, paint sessions that batch overwritten cells
    into one undoable operation, the undo/redo position counter that drives the dirty flag,
    and the load/save resets. The presenter is a value; every handler is a pure transition,
    and every call it makes on the view is appended to a trace. */
module GridPresenter {
  import opened Wrappers

  /** A packed cell coordinate (the 64-bit index of a cell in a layer). */
  type Key = int

  /** Identity of an undo context of the shared operation history. */
  type ContextId = nat

  /** A painted tile reference. Absence of a key in a grid means the cell is empty. */
  datatype Cell = Cell(tileIndex: int, hFlip: bool, vFlip: bool)

  /** The tile armed for painting; a negative index means "erase". */
  datatype SelectedTile = SelectedTile(tileIndex: int, hFlip: bool, vFlip: bool)

  /** Cells of the selected layer. */
  type Grid = map<Key, Cell>

  /** For each key written during a paint session, the value the write overwrote. */
  type Batch = map<Key, Option<Cell>>

  /** Calls the presenter makes on the view. PropertiesChanged stands for the view updates
      of a handled property change, Refreshed for those of a full refresh. */
  datatype ViewCall =
    | SetDirty(dirty: bool)
    | SetSelectedTile(tileIndex: int, hFlip: bool, vFlip: bool)
    | SetCell(key: Key, cell: Option<Cell>)
    | PropertiesChanged
    | Refreshed

  datatype EventType = Done | Redone | Undone | OtherEvent(code: int)

  /** A notification of the operation history: its type and the contexts of its operation. */
  datatype HistoryEvent = HistoryEvent(eventType: EventType, contexts: set<ContextId>)

  /** The presenter's state. `session` is the batch of an open paint session, `counter` the
      undo/redo position relative to the last load or save, `submitted` the batches handed to
      the operation history, `trace` the view calls made so far. */
  datatype Presenter = Presenter(
    undoContext: ContextId,
    grid: Grid,
    selected: SelectedTile,
    session: Option<Batch>,
    counter: int,
    loading: bool,
    submitted: seq<Batch>,
    trace: seq<ViewCall>)

  /** A freshly constructed presenter: nothing selected, no session, clean. */
  function Init(undoContext: ContextId, grid: Grid): (p: Presenter)
    ensures !IsDirty(p) && p.session.None? && p.selected == SelectedTile(-1, false, false)
    ensures !p.loading && p.grid == grid && p.undoContext == undoContext
    ensures p.trace == [] && p.submitted == []
  {
    Presenter(undoContext, grid, SelectedTile(-1, false, false), None, 0, false, [], [])
  }

  function Lookup(g: Grid, k: Key): Option<Cell> {
    if k in g then Some(g[k]) else None
  }

  /** Stores a cell at k, or clears k when given none. */
  function Write(g: Grid, k: Key, c: Option<Cell>): (r: Grid)
    ensures Lookup(r, k) == c
    ensures forall j :: j != k ==> Lookup(r, j) == Lookup(g, j)
  {
    if c.None? then g - {k} else g[k := c.value]
  }

  /** The cell that painting with the selection produces: none when the index is negative. */
  function Implied(t: SelectedTile): (c: Option<Cell>)
    ensures c.None? <==> t.tileIndex < 0
    ensures c.Some? ==> c.value == Cell(t.tileIndex, t.hFlip, t.vFlip)
  {
    if t.tileIndex >= 0 then Some(Cell(t.tileIndex, t.hFlip, t.vFlip)) else None
  }

  predicate IsDirty(p: Presenter) {
    p.counter != 0
  }

  // ---- undo/redo position ----

  /** Stores the new position and tells the view only when dirtiness flips; the position is
      already stored when the view is told, so the value sent is the new IsDirty. */
  function SetUndoRedoCounter(p: Presenter, counter: int): (r: Presenter)
    ensures r.counter == counter
    ensures IsDirty(r) <==> counter != 0
    ensures IsDirty(p) != IsDirty(r) ==> r.trace == p.trace + [SetDirty(IsDirty(r))]
    ensures IsDirty(p) == IsDirty(r) ==> r.trace == p.trace
    ensures r == p.(counter := counter, trace := r.trace)
  {
    var prevDirty := p.counter != 0;
    var dirty := counter != 0;
    var q := p.(counter := counter);
    if prevDirty != dirty then q.(trace := p.trace + [SetDirty(dirty)]) else q
  }

  /** historyNotification: events of operations outside this editor's undo context are
      ignored; DONE and REDONE step the position forward, UNDONE steps it back. */
  function HistoryNotification(p: Presenter, e: HistoryEvent): (r: Presenter)
    ensures p.undoContext !in e.contexts ==> r == p
    ensures p.undoContext in e.contexts && (e.eventType.Done? || e.eventType.Redone?) ==>
      r == SetUndoRedoCounter(p, p.counter + 1)
    ensures p.undoContext in e.contexts && e.eventType.Undone? ==>
      r == SetUndoRedoCounter(p, p.counter - 1)
    ensures e.eventType.OtherEvent? ==> r == p
  {
    if p.undoContext !in e.contexts then p
    else
      match e.eventType
      case Done => SetUndoRedoCounter(p, p.counter + 1)
      case Redone => SetUndoRedoCounter(p, p.counter + 1)
      case Undone => SetUndoRedoCounter(p, p.counter - 1)
      case OtherEvent(_) => p
  }

  /** The net move of the undo/redo position a sequence of events stands for. */
  function Displacement(ctx: ContextId, es: seq<HistoryEvent>): int {
    if |es| == 0 then 0
    else
      var step :=
        if ctx !in es[0].contexts then 0
        else if es[0].eventType.Done? || es[0].eventType.Redone? then 1
        else if es[0].eventType.Undone? then -1
        else 0;
      step + Displacement(ctx, es[1..])
  }

  function ReplayHistory(p: Presenter, es: seq<HistoryEvent>): Presenter
    decreases |es|
  {
    if |es| == 0 then p else ReplayHistory(HistoryNotification(p, es[0]), es[1..])
  }

  /** Any sequence of history events moves the position by its displacement and changes
      nothing but the position and the view trace. */
  lemma {:induction false} ReplayMovesCounterByDisplacement(p: Presenter, es: seq<HistoryEvent>)
    ensures ReplayHistory(p, es).counter == p.counter + Displacement(p.undoContext, es)
    ensures ReplayHistory(p, es) == p.(counter := ReplayHistory(p, es).counter,
                                        trace := ReplayHistory(p, es).trace)
    decreases |es|
  {
    if |es| > 0 {
      ReplayMovesCounterByDisplacement(HistoryNotification(p, es[0]), es[1..]);
    }
  }

  /** From a clean presenter, the editor is dirty after a history exactly when the events of
      its own context do not cancel out. */
  lemma DirtyIffHistoryUnbalanced(p: Presenter, es: seq<HistoryEvent>)
    requires !IsDirty(p)
    ensures IsDirty(ReplayHistory(p, es)) <==> Displacement(p.undoContext, es) != 0
  {
    ReplayMovesCounterByDisplacement(p, es);
  }

  /** Events of other undo contexts leave the presenter, view trace included, unchanged. */
  lemma {:induction false} ForeignHistoryIgnored(p: Presenter, es: seq<HistoryEvent>)
    requires forall i :: 0 <= i < |es| ==> p.undoContext !in es[i].contexts
    ensures ReplayHistory(p, es) == p
    decreases |es|
  {
    if |es| > 0 {
      ForeignHistoryIgnored(p, es[1..]);
    }
  }

  lemma {:induction false} ReplayConcat(p: Presenter, a: seq<HistoryEvent>, b: seq<HistoryEvent>)
    ensures ReplayHistory(p, a + b) == ReplayHistory(ReplayHistory(p, a), b)
    decreases |a|
  {
    if |a| > 0 {
      assert (a + b)[1..] == a[1..] + b;
      ReplayConcat(HistoryNotification(p, a[0]), a[1..], b);
    } else {
      assert a + b == b;
    }
  }

  function Repeat(e: HistoryEvent, n: nat): (es: seq<HistoryEvent>)
    ensures |es| == n && forall i :: 0 <= i < n ==> es[i] == e
  {
    seq(n, _ => e)
  }

  /** n scoped events of one type move the position n steps in that type's direction. */
  lemma {:induction false} RepeatedEvents(p: Presenter, t: EventType, n: nat)
    ensures t.Done? || t.Redone? ==>
      ReplayHistory(p, Repeat(HistoryEvent(t, {p.undoContext}), n)).counter == p.counter + n
    ensures t.Undone? ==>
      ReplayHistory(p, Repeat(HistoryEvent(t, {p.undoContext}), n)).counter == p.counter - n
    ensures ReplayHistory(p, Repeat(HistoryEvent(t, {p.undoContext}), n)).undoContext == p.undoContext
    decreases n
  {
    var e := HistoryEvent(t, {p.undoContext});
    if n > 0 {
      assert Repeat(e, n) == [e] + Repeat(e, n - 1);
      assert Repeat(e, n)[1..] == Repeat(e, n - 1);
      RepeatedEvents(HistoryNotification(p, e), t, n - 1);
    }
  }

  /** From a clean state, n DONE events followed by n UNDONE events are clean again, and
      followed by only n - 1 UNDONE events are still dirty. */
  lemma DoneThenUndoneReturnsClean(p: Presenter, n: nat)
    requires !IsDirty(p)
    ensures !IsDirty(ReplayHistory(p, Repeat(HistoryEvent(Done, {p.undoContext}), n)
                                       + Repeat(HistoryEvent(Undone, {p.undoContext}), n)))
    ensures n > 0 ==>
      IsDirty(ReplayHistory(p, Repeat(HistoryEvent(Done, {p.undoContext}), n)
                               + Repeat(HistoryEvent(Undone, {p.undoContext}), n - 1)))
  {
    var done := Repeat(HistoryEvent(Done, {p.undoContext}), n);
    var q := ReplayHistory(p, done);
    RepeatedEvents(p, Done, n);
    ReplayConcat(p, done, Repeat(HistoryEvent(Undone, {p.undoContext}), n));
    RepeatedEvents(q, Undone, n);
    if n > 0 {
      ReplayConcat(p, done, Repeat(HistoryEvent(Undone, {p.undoContext}), n - 1));
      RepeatedEvents(q, Undone, n - 1);
    }
  }

  // ---- tile selection ----

  /** onSelectTile: choosing the index already selected deselects (-1); any other index is
      kept as given. The flip flags always come from the arguments. */
  function SelectTile(p: Presenter, tileIndex: int, hFlip: bool, vFlip: bool): (r: Presenter)
    ensures r.selected.tileIndex == (if tileIndex == p.selected.tileIndex then -1 else tileIndex)
    ensures r.selected.hFlip == hFlip && r.selected.vFlip == vFlip
    ensures r.trace == p.trace + [SetSelectedTile(r.selected.tileIndex, hFlip, vFlip)]
    ensures r == p.(selected := r.selected, trace := r.trace)
  {
    var index := if p.selected.tileIndex == tileIndex then -1 else tileIndex;
    p.(selected := SelectedTile(index, hFlip, vFlip),
       trace := p.trace + [SetSelectedTile(index, hFlip, vFlip)])
  }

  /** Selecting the same index twice from a state where it is not selected ends deselected. */
  lemma SelectTwiceDeselects(p: Presenter, tileIndex: int, hFlip: bool, vFlip: bool)
    requires p.selected.tileIndex != tileIndex
    ensures SelectTile(p, tileIndex, hFlip, vFlip).selected.tileIndex == tileIndex
    ensures SelectTile(SelectTile(p, tileIndex, hFlip, vFlip), tileIndex, hFlip, vFlip)
              .selected.tileIndex == -1
  {
  }

  // ---- paint sessions ----

  /** onPaintBegin: opens a session with an empty batch, replacing any open one. */
  function PaintBegin(p: Presenter): (r: Presenter)
    ensures r.session == Some(map[])
    ensures r == p.(session := r.session)
  {
    p.(session := Some(map[]))
  }

  /** onPaint: outside a session nothing happens. Inside one, when the cell at k differs from
      the cell the selection implies, the implied cell is written, the view is told, and the
      overwritten value is put in the batch (replacing an earlier entry for k). */
  function Paint(p: Presenter, k: Key): (r: Presenter)
    ensures p.session.None? || Lookup(p.grid, k) == Implied(p.selected) ==> r == p
    ensures p.session.Some? && Lookup(p.grid, k) != Implied(p.selected) ==>
      && Lookup(r.grid, k) == Implied(p.selected)
      && (forall j :: j != k ==> Lookup(r.grid, j) == Lookup(p.grid, j))
      && r.session == Some(p.session.value[k := Lookup(p.grid, k)])
      && r.trace == p.trace + [SetCell(k, Implied(p.selected))]
    ensures r == p.(grid := r.grid, session := r.session, trace := r.trace)
  {
    if p.session.None? then p
    else
      var cell := Implied(p.selected);
      var oldCell := Lookup(p.grid, k);
      if cell != oldCell then
        var g := Write(p.grid, k, cell);
        p.(grid := g,
           session := Some(p.session.value[k := oldCell]),
           trace := p.trace + [SetCell(k, Lookup(g, k))])
      else p
  }

  /** onPaintEnd: a non-empty batch is submitted as one operation and the session closed;
      with an empty batch, or no session, nothing happens (an empty session stays open). */
  function PaintEnd(p: Presenter): (r: Presenter)
    ensures p.session.Some? && |p.session.value| > 0 ==>
      r == p.(session := None, submitted := p.submitted + [p.session.value])
    ensures p.session.None? || |p.session.value| == 0 ==> r == p
  {
    if p.session.Some? && |p.session.value| > 0 then
      p.(submitted := p.submitted + [p.session.value], session := None)
    else p
  }

  function PaintAll(p: Presenter, ks: seq<Key>): Presenter
    decreases |ks|
  {
    if |ks| == 0 then p else PaintAll(Paint(p, ks[0]), ks[1..])
  }

  /** The session's relation to the grid as it was when the session began: the batch maps
      each key to its value at the beginning, batch keys hold the implied cell, every other
      key is as it was. */
  ghost predicate SessionFaithful(begin: Grid, p: Presenter) {
    && p.session.Some?
    && (forall k :: k in p.session.value ==> p.session.value[k] == Lookup(begin, k))
    && (forall k :: k in p.session.value ==> p.session.value[k] != Implied(p.selected))
    && (forall k :: k in p.session.value ==> Lookup(p.grid, k) == Implied(p.selected))
    && (forall k :: k !in p.session.value ==> Lookup(p.grid, k) == Lookup(begin, k))
  }

  lemma PaintKeepsSessionFaithful(begin: Grid, p: Presenter, k: Key)
    requires SessionFaithful(begin, p)
    ensures SessionFaithful(begin, Paint(p, k))
    ensures Paint(p, k).selected == p.selected
    ensures Paint(p, k).session.value.Keys
      == p.session.value.Keys + (if Lookup(p.grid, k) != Implied(p.selected) then {k} else {})
  {
  }

  /** With the selection held fixed, any sequence of paints in a session keeps the batch at
      the values of the session's beginning, and the batch's keys are exactly the painted keys
      whose beginning value differed from the implied cell. */
  lemma {:induction false} PaintsKeepSessionFaithful(begin: Grid, p: Presenter, ks: seq<Key>)
    requires SessionFaithful(begin, p)
    ensures SessionFaithful(begin, PaintAll(p, ks))
    ensures PaintAll(p, ks).selected == p.selected
    ensures PaintAll(p, ks).submitted == p.submitted
    ensures PaintAll(p, ks).session.value.Keys
      == p.session.value.Keys + (set k | k in ks && Lookup(begin, k) != Implied(p.selected))
    decreases |ks|
  {
    if |ks| > 0 {
      var q := Paint(p, ks[0]);
      PaintKeepsSessionFaithful(begin, p, ks[0]);
      PaintsKeepSessionFaithful(begin, q, ks[1..]);
      var tail := set k | k in ks[1..] && Lookup(begin, k) != Implied(p.selected);
      var all := set k | k in ks && Lookup(begin, k) != Implied(p.selected);
      assert ks == [ks[0]] + ks[1..];
      if k0 :| k0 == ks[0] && Lookup(begin, k0) != Implied(p.selected) {
        if ks[0] !in p.session.value {
          assert Lookup(p.grid, ks[0]) == Lookup(begin, ks[0]);
        }
        assert all == tail + {ks[0]};
      } else {
        assert all == tail;
        if ks[0] !in p.session.value {
          assert Lookup(p.grid, ks[0]) == Implied(p.selected);
        }
      }
    }
  }

  /** The grid a batch describes applied to g: every batch key gets the batch's value. */
  function ApplyBatch(g: Grid, b: Batch): (r: Grid)
    ensures forall k :: k in b ==> Lookup(r, k) == b[k]
    ensures forall k :: k !in b ==> Lookup(r, k) == Lookup(g, k)
  {
    map k | k in (g.Keys - b.Keys) + (set j | j in b && b[j].Some?) ::
      if k in b then b[k].value else g[k]
  }

  lemma GridsEqualByLookup(a: Grid, b: Grid)
    requires forall k :: Lookup(a, k) == Lookup(b, k)
    ensures a == b
  {
    forall k | k in a
      ensures k in b && a[k] == b[k]
    {
      assert Lookup(a, k) == Lookup(b, k);
    }
    forall k | k in b
      ensures k in a
    {
      assert Lookup(a, k) == Lookup(b, k);
    }
  }

  /** Undoing the batch of a faithful session (writing its values back) restores the grid
      of the session's beginning. */
  lemma UndoRestoresBegin(begin: Grid, q: Presenter)
    requires SessionFaithful(begin, q)
    ensures ApplyBatch(q.grid, q.session.value) == begin
  {
    GridsEqualByLookup(ApplyBatch(q.grid, q.session.value), begin);
  }

  /** Redoing it (writing the implied cell at its keys) over the beginning grid gives the
      current grid. */
  lemma RedoGivesEnd(begin: Grid, q: Presenter)
    requires SessionFaithful(begin, q)
    ensures ApplyBatch(begin, map k | k in q.session.value :: Implied(q.selected)) == q.grid
  {
    GridsEqualByLookup(ApplyBatch(begin, map k | k in q.session.value :: Implied(q.selected)), q.grid);
  }

  /** The batch of a faithful session is empty exactly when the grid is back at its beginning. */
  lemma EmptyBatchIffUnchanged(begin: Grid, q: Presenter)
    requires SessionFaithful(begin, q)
    ensures |q.session.value| == 0 <==> q.grid == begin
  {
    if |q.session.value| == 0 {
      GridsEqualByLookup(q.grid, begin);
    }
    assert forall k :: k in q.session.value ==> Lookup(q.grid, k) != Lookup(begin, k);
    if q.grid == begin {
      assert forall k :: k !in q.session.value.Keys;
      assert q.session.value.Keys == {};
      assert |q.session.value| == |q.session.value.Keys| == 0;
    }
  }

  /** A whole session (begin, any paints with a fixed selection, end) submits exactly one
      batch when the grid changed, and nothing otherwise (the empty session staying open).
      Undoing the submitted batch restores the grid of the beginning; redoing it restores
      the grid of the end. */
  lemma SessionIsOneReversibleOperation(p: Presenter, ks: seq<Key>)
    ensures var r := PaintEnd(PaintAll(PaintBegin(p), ks));
      && r.grid == PaintAll(PaintBegin(p), ks).grid
      && (r.grid != p.grid <==> |r.submitted| == |p.submitted| + 1)
      && (r.grid == p.grid ==> r.submitted == p.submitted && r.session == Some(map[]))
      && (r.grid != p.grid ==>
            && r.session.None?
            && ApplyBatch(r.grid, r.submitted[|p.submitted|]) == p.grid
            && ApplyBatch(p.grid, map k | k in r.submitted[|p.submitted|] :: Implied(p.selected))
               == r.grid)
  {
    var b := PaintBegin(p);
    PaintsKeepSessionFaithful(p.grid, b, ks);
    var q := PaintAll(b, ks);
    EmptyBatchIffUnchanged(p.grid, q);
    var r := PaintEnd(q);
    if |q.session.value| > 0 {
      assert r.submitted == p.submitted + [q.session.value];
      UndoRestoresBegin(p.grid, q);
      RedoGivesEnd(p.grid, q);
    }
  }

  /** The batch keeps only the last overwritten value of a key: when the selection changes
      in mid-stroke and a key is painted twice, the batch holds the intermediate value, not
      the value of the session's beginning. */
  lemma SelectionChangeMidStrokeLosesBeginValue()
    ensures var p0 := Init(0, map[]);
      var p1 := SelectTile(PaintBegin(p0), 1, false, false);
      var p2 := SelectTile(Paint(p1, 7), 2, false, false);
      var p3 := Paint(p2, 7);
      && Lookup(p0.grid, 7) == None
      && p3.session == Some(map[7 := Some(Cell(1, false, false))])
  {
    var p0 := Init(0, map[]);
    var p1 := SelectTile(PaintBegin(p0), 1, false, false);
    assert Implied(p1.selected) == Some(Cell(1, false, false));
    var p2 := SelectTile(Paint(p1, 7), 2, false, false);
    assert Lookup(p2.grid, 7) == Some(Cell(1, false, false));
    assert p2.session == Some(map[7 := None]);
    assert Implied(p2.selected) == Some(Cell(2, false, false));
    assert Paint(p2, 7).session == Some(map[7 := None][7 := Some(Cell(1, false, false))]);
    assert map[7 := None][7 := Some(Cell(1, false, false))] == map[7 := Some(Cell(1, false, false))];
  }

  /** A second onPaintBegin drops the batch of the open session: the earlier writes stay in
      the grid but no operation for them is ever submitted. */
  lemma RebeginDropsEarlierWrites()
    ensures var p0 := SelectTile(Init(0, map[]), 3, false, false);
      var p1 := PaintBegin(PaintBegin(Paint(PaintBegin(p0), 5)));
      var p2 := PaintEnd(p1);
      && Lookup(p2.grid, 5) == Some(Cell(3, false, false))
      && p2.submitted == []
  {
  }

  // ---- property changes, load and save ----

  /** propertyChange: ignored while loading; otherwise the view is updated. */
  function PropertyChange(p: Presenter): (r: Presenter)
    ensures p.loading ==> r == p
    ensures !p.loading ==> r == p.(trace := p.trace + [PropertiesChanged])
  {
    if p.loading then p else p.(trace := p.trace + [PropertiesChanged])
  }

  function PropertyChanges(p: Presenter, n: nat): Presenter
    decreases n
  {
    if n == 0 then p else PropertyChanges(PropertyChange(p), n - 1)
  }

  lemma {:induction false} ChangesWhileLoadingIgnored(p: Presenter, n: nat)
    requires p.loading
    ensures PropertyChanges(p, n) == p
    decreases n
  {
    if n > 0 {
      ChangesWhileLoadingIgnored(p, n - 1);
    }
  }

  /** onLoad: the model's load (which replaces the grid and fires `notifications` property
      changes) runs with the loading flag set, then the position is reset and the view
      refreshed. */
  function Load(p: Presenter, loaded: Grid, notifications: nat): (r: Presenter)
    ensures r.grid == loaded && !r.loading && !IsDirty(r)
    ensures |r.trace| > 0 && r.trace[|r.trace| - 1] == Refreshed
    ensures r.session == p.session && r.selected == p.selected && r.submitted == p.submitted
    ensures r == p.(grid := loaded, counter := 0, loading := false, trace := r.trace)
  {
    ChangesWhileLoadingIgnored(p.(loading := true, grid := loaded), notifications);
    var q := PropertyChanges(p.(loading := true, grid := loaded), notifications);
    var s := SetUndoRedoCounter(q.(loading := false), 0);
    s.(trace := s.trace + [Refreshed])
  }

  /** Loading is clean afterwards, and the property changes fired during the load reach the
      view not at all: only the dirty reset (when the presenter was dirty) and the refresh. */
  lemma LoadResetsAndSuppressesChanges(p: Presenter, loaded: Grid, notifications: nat)
    requires !p.loading
    ensures var r := Load(p, loaded, notifications);
      && r.counter == 0 && !IsDirty(r) && !r.loading && r.grid == loaded
      && r.trace == p.trace + (if IsDirty(p) then [SetDirty(false)] else []) + [Refreshed]
      && r == p.(grid := loaded, counter := 0, trace := r.trace)
  {
    ChangesWhileLoadingIgnored(p.(loading := true, grid := loaded), notifications);
  }

  /** onSave: when the model's save writes the document, the position is reset; when it
      throws, the reset is skipped and the presenter is left as it was. `written` is the
      outcome of the save. */
  function Save(p: Presenter, written: bool): (r: Presenter)
    ensures written ==> r.counter == 0 && !IsDirty(r)
    ensures written ==> r.trace == p.trace + (if IsDirty(p) then [SetDirty(false)] else [])
    ensures written ==> r == p.(counter := 0, trace := r.trace)
    ensures !written ==> r == p
  {
    if written then SetUndoRedoCounter(p, 0) else p
  }

  // ---- the presenter as a state machine ----

  datatype Input =
    | OnSelectTile(tileIndex: int, hFlip: bool, vFlip: bool)
    | OnPaintBegin
    | OnPaint(key: Key)
    | OnPaintEnd
    | OnHistory(event: HistoryEvent)
    | OnPropertyChange
    | OnLoad(loaded: Grid, notifications: nat)
    | OnSave(written: bool)

  function Step(p: Presenter, i: Input): Presenter {
    match i
    case OnSelectTile(t, h, v) => SelectTile(p, t, h, v)
    case OnPaintBegin => PaintBegin(p)
    case OnPaint(k) => Paint(p, k)
    case OnPaintEnd => PaintEnd(p)
    case OnHistory(e) => HistoryNotification(p, e)
    case OnPropertyChange => PropertyChange(p)
    case OnLoad(g, n) => Load(p, g, n)
    case OnSave(written) => Save(p, written)
  }

  function Run(p: Presenter, inputs: seq<Input>): Presenter
    decreases |inputs|
  {
    if |inputs| == 0 then p else Run(Step(p, inputs[0]), inputs[1..])
  }

  /** The dirty state the view was last told (clean before any SetDirty call). */
  function ShownDirty(trace: seq<ViewCall>): bool
    decreases |trace|
  {
    if |trace| == 0 then false
    else if trace[|trace| - 1].SetDirty? then trace[|trace| - 1].dirty
    else ShownDirty(trace[..|trace| - 1])
  }

  /** The view shows the presenter's dirty state. */
  predicate ViewInSync(p: Presenter) {
    ShownDirty(p.trace) == IsDirty(p) && !p.loading
  }

  lemma ShownDirtyAppend(t: seq<ViewCall>, c: ViewCall)
    ensures ShownDirty(t + [c]) == if c.SetDirty? then c.dirty else ShownDirty(t)
  {
    assert (t + [c])[..|t + [c]| - 1] == t;
  }

  lemma SetCounterKeepsSync(p: Presenter, counter: int)
    requires ShownDirty(p.trace) == IsDirty(p)
    ensures ShownDirty(SetUndoRedoCounter(p, counter).trace) == (counter != 0)
  {
    if IsDirty(p) != (counter != 0) {
      ShownDirtyAppend(p.trace, SetDirty(counter != 0));
    }
  }

  /** Every handler keeps the view's dirty indicator equal to the presenter's dirty state. */
  lemma StepKeepsViewInSync(p: Presenter, i: Input)
    requires ViewInSync(p)
    ensures ViewInSync(Step(p, i))
  {
    match i
    case OnSelectTile(t, h, v) =>
      ShownDirtyAppend(p.trace, SetSelectedTile(Step(p, i).selected.tileIndex, h, v));
    case OnPaintBegin =>
    case OnPaint(k) =>
      if p.session.Some? && Lookup(p.grid, k) != Implied(p.selected) {
        ShownDirtyAppend(p.trace, SetCell(k, Implied(p.selected)));
      }
    case OnPaintEnd =>
    case OnHistory(e) =>
      if p.undoContext in e.contexts {
        SetCounterKeepsSync(p, p.counter + 1);
        SetCounterKeepsSync(p, p.counter - 1);
      }
    case OnPropertyChange =>
      ShownDirtyAppend(p.trace, PropertiesChanged);
    case OnLoad(g, n) =>
      LoadKeepsViewInSync(p, g, n);
    case OnSave(written) =>
      if written {
        SetCounterKeepsSync(p, 0);
      }
  }

  lemma LoadKeepsViewInSync(p: Presenter, loaded: Grid, notifications: nat)
    requires ViewInSync(p)
    ensures ViewInSync(Load(p, loaded, notifications))
  {
    LoadResetsAndSuppressesChanges(p, loaded, notifications);
    var reset := if IsDirty(p) then [SetDirty(false)] else [];
    ShownDirtyAppend(p.trace + reset, Refreshed);
    if IsDirty(p) {
      ShownDirtyAppend(p.trace, SetDirty(false));
    } else {
      assert p.trace + reset == p.trace;
    }
  }

  lemma {:induction false} RunKeepsViewInSync(p: Presenter, inputs: seq<Input>)
    requires ViewInSync(p)
    ensures ViewInSync(Run(p, inputs))
    decreases |inputs|
  {
    if |inputs| > 0 {
      StepKeepsViewInSync(p, inputs[0]);
      RunKeepsViewInSync(Step(p, inputs[0]), inputs[1..]);
    }
  }

  /** From construction on, whatever the handlers are called with, the view's dirty indicator
      is the presenter's IsDirty, which is the position being non-zero. */
  lemma ViewAlwaysShowsDirtiness(undoContext: ContextId, grid: Grid, inputs: seq<Input>)
    ensures ShownDirty(Run(Init(undoContext, grid), inputs).trace)
            == (Run(Init(undoContext, grid), inputs).counter != 0)
  {
    RunKeepsViewInSync(Init(undoContext, grid), inputs);
  }
}

=== FILE: java_ints.dfy ===
/** Java's 32-bit two's complement int arithmetic. */
module JavaInts {

  const INT_MIN: int := -0x8000_0000
  const INT_MAX: int := 0x7fff_ffff

  predicate IsInt32(x: int) {
    INT_MIN <= x <= INT_MAX
  }

  /** Wrap-around of an exact result into the int range, as Java's int arithmetic does. */
  function Wrap32(x: int): (r: int)
    ensures IsInt32(r)
    ensures (r - x) % 0x1_0000_0000 == 0
    ensures IsInt32(x) ==> r == x
  {
    (x - INT_MIN) % 0x1_0000_0000 + INT_MIN
  }

  /** Java's `a + b` on two ints. */
  function Add32(a: int, b: int): (r: int)
    requires IsInt32(a) && IsInt32(b)
    ensures IsInt32(r)
    ensures IsInt32(a + b) ==> r == a + b
    ensures a + b > INT_MAX ==> r == a + b - 0x1_0000_0000
    ensures a + b < INT_MIN ==> r == a + b + 0x1_0000_0000
  {
    Wrap32(a + b)
  }
}

=== FILE: java_strings.dfy ===
/** Java's String.compareTo, stated over unbounded Dafny integers and characters. */
module JavaStrings {

  /** String.compareTo: at the first index where the strings differ, the difference of the two
      characters; when one string is a prefix of the other, the difference of the lengths. */
  function Compare(a: string, b: string): (r: int)
    ensures (a <= b || b <= a) ==> r == |a| - |b|
    ensures forall k {:trigger FirstDifference(a, b, k)} :: FirstDifference(a, b, k) ==>
      r == a[k] as int - b[k] as int
    decreases |a|
  {
    if |a| == 0 || |b| == 0 then |a| - |b|
    else if a[0] != b[0] then a[0] as int - b[0] as int
    else
      forall k | 0 < k && FirstDifference(a, b, k)
        ensures FirstDifference(a[1..], b[1..], k - 1)
      {
        assert a[1..][..k - 1] == a[..k][1..];
        assert b[1..][..k - 1] == b[..k][1..];
      }
      Compare(a[1..], b[1..])
  }

  /** k is the first index where a and b differ. */
  predicate FirstDifference(a: string, b: string, k: int) {
    0 <= k < |a| && k < |b| && a[..k] == b[..k] && a[k] != b[k]
  }

  predicate Le(a: string, b: string) {
    Compare(a, b) <= 0
  }

  /** Swapping the operands negates the result exactly. */
  lemma {:induction false} CompareAntisymmetric(a: string, b: string)
    ensures Compare(a, b) == -Compare(b, a)
    decreases |a|
  {
    if |a| == 0 || |b| == 0 {
    } else if a[0] != b[0] {
    } else {
      CompareAntisymmetric(a[1..], b[1..]);
    }
  }

  /** Zero means equal, and only equal strings give zero. */
  lemma {:induction false} CompareZeroIffEqual(a: string, b: string)
    ensures Compare(a, b) == 0 <==> a == b
    decreases |a|
  {
    if |a| == 0 || |b| == 0 {
    } else if a[0] != b[0] {
    } else {
      CompareZeroIffEqual(a[1..], b[1..]);
      assert a == [a[0]] + a[1..];
      assert b == [b[0]] + b[1..];
    }
  }

  /** The order Compare induces is transitive. */
  lemma {:induction false} CompareTransitive(a: string, b: string, c: string)
    requires Le(a, b) && Le(b, c)
    ensures Le(a, c)
    decreases |a|
  {
    if |a| == 0 || |b| == 0 || |c| == 0 {
    } else if a[0] != b[0] || b[0] != c[0] {
    } else {
      CompareTransitive(a[1..], b[1..], c[1..]);
    }
  }

  /** Strict order: transitivity through a strictly smaller middle. */
  lemma CompareStrictTransitive(a: string, b: string, c: string)
    requires Le(a, b) && Compare(b, c) < 0
    ensures Compare(a, c) < 0
  {
    CompareTransitive(a, b, c);
    CompareZeroIffEqual(a, c);
    if a == c {
      CompareAntisymmetric(b, c);
      CompareZeroIffEqual(a, b);
    }
  }

  /** Either a <= b or b <= a. */
  lemma CompareTotal(a: string, b: string)
    ensures Le(a, b) || Le(b, a)
  {
    CompareAntisymmetric(a, b);
  }
}

=== FILE: tile_set_children.dfy ===
/** The children of a tile set node: animations and collision groups, the comparator
    that orders them, and the exact-match lookup of a collision group by id. */
module TileSetChildren {
  import opened Wrappers
  import JavaStrings

  /** A child node of a tile set. Both kinds are identified by a string id. */
  datatype Child = Animation(id: string) | CollisionGroup(id: string)

  /** Family rank: every animation ranks before every collision group. */
  function Rank(c: Child): nat {
    if c.Animation? then 0 else 1
  }

  /** The comparator of sortChildren: a child of the other family decides by family alone,
      a child of the same family by String.compareTo of the ids. */
  function Compare(a: Child, b: Child): (r: int)
    ensures Rank(a) < Rank(b) ==> r < 0
    ensures Rank(a) > Rank(b) ==> r > 0
    ensures Rank(a) == Rank(b) ==> r == JavaStrings.Compare(a.id, b.id)
  {
    if (a.Animation? && b.CollisionGroup?) || (a.CollisionGroup? && b.Animation?) then
      (if a.CollisionGroup? then 1 else -1)
    else
      JavaStrings.Compare(a.id, b.id)
  }

  predicate Le(a: Child, b: Child) {
    Compare(a, b) <= 0
  }

  lemma CompareAntisymmetric(a: Child, b: Child)
    ensures Compare(a, b) == -Compare(b, a)
  {
    JavaStrings.CompareAntisymmetric(a.id, b.id);
  }

  /** The comparator returns 0 exactly for equal children, so sorting has no ties to break. */
  lemma CompareZeroIffEqual(a: Child, b: Child)
    ensures Compare(a, b) == 0 <==> a == b
  {
    JavaStrings.CompareZeroIffEqual(a.id, b.id);
  }

  lemma CompareTransitive(a: Child, b: Child, c: Child)
    requires Le(a, b) && Le(b, c)
    ensures Le(a, c)
  {
    if Rank(a) == Rank(b) == Rank(c) {
      JavaStrings.CompareTransitive(a.id, b.id, c.id);
    }
  }

  /** Every pair, not only neighbours, is in comparator order. */
  predicate Sorted(xs: seq<Child>) {
    forall i, j :: 0 <= i < j < |xs| ==> Le(xs[i], xs[j])
  }

  /** Inserts x before the first element it is not greater than. */
  function Insert(x: Child, xs: seq<Child>): (r: seq<Child>)
    requires Sorted(xs)
    ensures Sorted(r)
    ensures multiset(r) == multiset(xs) + multiset{x}
  {
    if |xs| == 0 then [x]
    else if Le(x, xs[0]) then
      InsertFrontSorted(x, xs);
      [x] + xs
    else
      var rest := Insert(x, xs[1..]);
      InsertBehindSorted(x, xs, rest);
      assert xs == [xs[0]] + xs[1..];
      [xs[0]] + rest
  }

  lemma InsertFrontSorted(x: Child, xs: seq<Child>)
    requires Sorted(xs) && |xs| > 0 && Le(x, xs[0])
    ensures Sorted([x] + xs)
  {
    forall j | 0 <= j < |xs|
      ensures Le(x, xs[j])
    {
      if j > 0 {
        CompareTransitive(x, xs[0], xs[j]);
      }
    }
  }

  lemma InsertBehindSorted(x: Child, xs: seq<Child>, rest: seq<Child>)
    requires Sorted(xs) && |xs| > 0 && !Le(x, xs[0])
    requires Sorted(rest) && multiset(rest) == multiset(xs[1..]) + multiset{x}
    ensures Sorted([xs[0]] + rest)
  {
    CompareAntisymmetric(x, xs[0]);
    forall j | 0 <= j < |rest|
      ensures Le(xs[0], rest[j])
    {
      assert rest[j] in multiset(rest);
      if rest[j] != x {
        assert rest[j] in multiset(xs[1..]);
        var k :| 0 <= k < |xs[1..]| && xs[1..][k] == rest[j];
        assert xs[k + 1] == rest[j];
      }
    }
  }

  /** Stand-in for the library sort sortChildren delegates to. */
  function SortChildren(xs: seq<Child>): (r: seq<Child>)
    ensures Sorted(r)
    ensures multiset(r) == multiset(xs)
  {
    if |xs| == 0 then []
    else
      assert xs == [xs[0]] + xs[1..];
      Insert(xs[0], SortChildren(xs[1..]))
  }

  /** Two sorted orderings of the same children are equal, so any correct sort (the stable
      merge sort of the Java library among them) yields what SortChildren yields. */
  lemma {:induction false} SortedPermutationUnique(a: seq<Child>, b: seq<Child>)
    requires Sorted(a) && Sorted(b) && multiset(a) == multiset(b)
    ensures a == b
    decreases |a|
  {
    if |a| == 0 {
      assert |b| == |multiset(b)| == 0;
    } else {
      SortedHeadsAgree(a, b);
      TailsSameMultiset(a, b);
      SortedPermutationUnique(a[1..], b[1..]);
      assert a == [a[0]] + a[1..];
      assert b == [b[0]] + b[1..];
    }
  }

  lemma SortedHeadsAgree(a: seq<Child>, b: seq<Child>)
    requires Sorted(a) && Sorted(b) && multiset(a) == multiset(b) && |a| > 0
    ensures |b| > 0 && a[0] == b[0]
  {
    assert |b| == |multiset(b)| == |multiset(a)| == |a|;
    assert a[0] in multiset(b);
    assert b[0] in multiset(a);
    var i :| 0 <= i < |b| && b[i] == a[0];
    var j :| 0 <= j < |a| && a[j] == b[0];
    assert Le(b[0], a[0]) by {
      if i > 0 { assert Le(b[0], b[i]); } else { CompareZeroIffEqual(b[0], a[0]); }
    }
    assert Le(a[0], b[0]) by {
      if j > 0 { assert Le(a[0], a[j]); } else { CompareZeroIffEqual(a[0], b[0]); }
    }
    CompareAntisymmetric(a[0], b[0]);
    CompareZeroIffEqual(a[0], b[0]);
  }

  lemma TailsSameMultiset<T>(a: seq<T>, b: seq<T>)
    requires |a| > 0 && |b| > 0 && a[0] == b[0] && multiset(a) == multiset(b)
    ensures multiset(a[1..]) == multiset(b[1..])
  {
    assert a == [a[0]] + a[1..];
    assert b == [b[0]] + b[1..];
    assert multiset(a[1..]) == multiset(a) - multiset{a[0]};
    assert multiset(b[1..]) == multiset(b) - multiset{b[0]};
  }

  /** In sorted children every animation precedes every collision group, and children of one
      family appear in String.compareTo order of their ids. */
  lemma SortedAnimationsFirst(xs: seq<Child>)
    requires Sorted(xs)
    ensures forall i, j :: 0 <= i < j < |xs| ==> !(xs[i].CollisionGroup? && xs[j].Animation?)
    ensures forall i, j :: 0 <= i < j < |xs| && Rank(xs[i]) == Rank(xs[j]) ==>
      JavaStrings.Le(xs[i].id, xs[j].id)
  {
    forall i, j | 0 <= i < j < |xs|
      ensures !(xs[i].CollisionGroup? && xs[j].Animation?)
    {
      assert Le(xs[i], xs[j]);
    }
  }

  // ---- collision group lookup ----

  /** The filter of getCollisionGroups, walking the children in order. */
  function Groups(children: seq<Child>): seq<Child>
    decreases |children|
  {
    if |children| == 0 then []
    else (if children[0].CollisionGroup? then [children[0]] else []) + Groups(children[1..])
  }

  lemma {:induction false} GroupsCounts(children: seq<Child>)
    ensures forall c ::
              multiset(Groups(children))[c] == (if c.CollisionGroup? then multiset(children)[c] else 0)
    ensures forall i :: 0 <= i < |Groups(children)| ==> Groups(children)[i].CollisionGroup?
    decreases |children|
  {
    if |children| > 0 {
      GroupsCounts(children[1..]);
      assert children == [children[0]] + children[1..];
    }
  }

  lemma {:induction false} GroupsAppend(a: seq<Child>, b: seq<Child>)
    ensures Groups(a + b) == Groups(a) + Groups(b)
    decreases |a|
  {
    if |a| == 0 {
      assert a + b == b;
    } else {
      assert (a + b)[1..] == a[1..] + b;
      GroupsAppend(a[1..], b);
    }
  }

  /** The collision-group children, in child order (getCollisionGroups). */
  function CollisionGroups(children: seq<Child>): (r: seq<Child>)
    ensures forall c :: c in r <==> c in children && c.CollisionGroup?
    ensures forall c :: multiset(r)[c] == (if c.CollisionGroup? then multiset(children)[c] else 0)
    ensures forall i :: 0 <= i < |r| ==> r[i].CollisionGroup?
  {
    var r := Groups(children);
    GroupsCounts(children);
    forall c
      ensures c in r <==> c in children && c.CollisionGroup?
    {
      assert c in r <==> c in multiset(r);
      assert c in children <==> c in multiset(children);
    }
    r
  }

  /** The filter distributes over concatenation, so it keeps every collision group in child
      order: together with CollisionGroupsSingle this determines CollisionGroups. */
  lemma CollisionGroupsAppend(a: seq<Child>, b: seq<Child>)
    ensures CollisionGroups(a + b) == CollisionGroups(a) + CollisionGroups(b)
  {
    GroupsAppend(a, b);
  }

  /** The filter keeps a single child exactly when it is a collision group. */
  lemma CollisionGroupsSingle(c: Child)
    ensures CollisionGroups([]) == []
    ensures CollisionGroups([c]) == (if c.CollisionGroup? then [c] else [])
  {
    assert [c][1..] == [];
  }

  function Ids(xs: seq<Child>): (r: seq<string>)
    ensures |r| == |xs|
    ensures forall i :: 0 <= i < |xs| ==> r[i] == xs[i].id
  {
    seq(|xs|, i requires 0 <= i < |xs| => xs[i].id)
  }

  predicate IdsSorted(a: seq<string>) {
    forall i, j :: 0 <= i < j < |a| ==> JavaStrings.Le(a[i], a[j])
  }

  /** The collision-group children, sorted as setTileCollisionGroups sorts them. */
  function SortedGroups(children: seq<Child>): (r: seq<Child>)
    ensures Sorted(r)
    ensures multiset(r) == multiset(CollisionGroups(children))
    ensures forall c :: c in r <==> c in children && c.CollisionGroup?
  {
    var groups := CollisionGroups(children);
    var sorted := SortChildren(groups);
    forall c
      ensures c in sorted <==> c in groups
    {
      assert c in sorted <==> c in multiset(sorted);
      assert c in groups <==> c in multiset(groups);
    }
    sorted
  }

  /** The ids of the defined collision groups, sorted as setTileCollisionGroups sorts them;
      contains exactly the ids of the collision-group children. */
  function SortedGroupIds(children: seq<Child>): (r: seq<string>)
    ensures IdsSorted(r)
    ensures forall id :: id in r <==> CollisionGroup(id) in children
    ensures multiset(r) == multiset(Ids(CollisionGroups(children)))
  {
    var groups := SortedGroups(children);
    GroupIdsSorted(groups);
    GroupIdsMembers(children, groups);
    IdsSameMultiset(groups, CollisionGroups(children));
    Ids(groups)
  }

  lemma IdsAppend(a: seq<Child>, b: seq<Child>)
    ensures Ids(a + b) == Ids(a) + Ids(b)
  {
  }

  /** Children that are permutations of each other have ids that are permutations of each
      other. */
  lemma {:induction false} IdsSameMultiset(xs: seq<Child>, ys: seq<Child>)
    requires multiset(xs) == multiset(ys)
    ensures multiset(Ids(xs)) == multiset(Ids(ys))
    decreases |xs|
  {
    if |xs| == 0 {
      assert |ys| == |multiset(ys)| == 0;
    } else {
      assert xs[0] in multiset(ys);
      var k :| 0 <= k < |ys| && ys[k] == xs[0];
      var rest := ys[..k] + ys[k + 1..];
      assert ys == ys[..k] + [ys[k]] + ys[k + 1..];
      assert xs == [xs[0]] + xs[1..];
      assert multiset(ys) == multiset(ys[..k]) + multiset{ys[k]} + multiset(ys[k + 1..]);
      assert multiset(rest) == multiset(ys[..k]) + multiset(ys[k + 1..]);
      assert multiset(xs) == multiset{xs[0]} + multiset(xs[1..]);
      assert multiset(xs[1..]) == multiset(xs) - multiset{xs[0]};
      assert multiset(rest) == multiset(ys) - multiset{ys[k]};
      IdsSameMultiset(xs[1..], rest);
      IdsAppend([xs[0]], xs[1..]);
      IdsAppend(ys[..k], ys[k + 1..]);
      IdsAppend(ys[..k] + [ys[k]], ys[k + 1..]);
      IdsAppend(ys[..k], [ys[k]]);
    }
  }

  /** Sorted collision groups have sorted ids. */
  lemma GroupIdsSorted(groups: seq<Child>)
    requires Sorted(groups) && forall c :: c in groups ==> c.CollisionGroup?
    ensures IdsSorted(Ids(groups))
  {
    var ids := Ids(groups);
    forall i, j | 0 <= i < j < |ids|
      ensures JavaStrings.Le(ids[i], ids[j])
    {
      assert groups[i] in groups && groups[j] in groups;
      assert Le(groups[i], groups[j]);
    }
  }

  /** The ids of a list holding exactly the collision-group children are exactly the ids of
      the defined collision groups. */
  lemma GroupIdsMembers(children: seq<Child>, groups: seq<Child>)
    requires forall c :: c in groups <==> c in children && c.CollisionGroup?
    ensures forall id :: id in Ids(groups) <==> CollisionGroup(id) in children
  {
    var ids := Ids(groups);
    forall id | CollisionGroup(id) in children
      ensures id in ids
    {
      var k :| 0 <= k < |groups| && groups[k] == CollisionGroup(id);
      assert ids[k] == id;
    }
    forall id | id in ids
      ensures CollisionGroup(id) in children
    {
      var k :| 0 <= k < |ids| && ids[k] == id;
      assert groups[k] in groups;
      assert groups[k] == CollisionGroup(id);
    }
  }

  /** Collections.binarySearch over [lo, hi), with Java's midpoint of the inclusive bounds
      lo and hi - 1: a non-negative result is an index holding the key, a negative one means
      no index in the range holds it. */
  function BinarySearch(a: seq<string>, key: string, lo: nat, hi: nat): (r: int)
    requires lo <= hi <= |a| && IdsSorted(a)
    ensures 0 <= r ==> lo <= r < hi && a[r] == key
    ensures r < 0 ==> forall i :: lo <= i < hi ==> a[i] != key
    decreases hi - lo
  {
    if lo == hi then -(lo + 1)
    else
      var mid := (lo + hi - 1) / 2;
      var c := JavaStrings.Compare(a[mid], key);
      if c < 0 then
        BelowMidMisses(a, key, lo, mid);
        BinarySearch(a, key, mid + 1, hi)
      else if c > 0 then
        AboveMidMisses(a, key, mid, hi);
        BinarySearch(a, key, lo, mid)
      else
        JavaStrings.CompareZeroIffEqual(a[mid], key);
        mid
  }

  lemma BelowMidMisses(a: seq<string>, key: string, lo: nat, mid: nat)
    requires lo <= mid < |a| && IdsSorted(a) && JavaStrings.Compare(a[mid], key) < 0
    ensures forall i :: lo <= i <= mid ==> a[i] != key
  {
    JavaStrings.CompareAntisymmetric(a[mid], key);
    forall i | lo <= i <= mid
      ensures a[i] != key
    {
      if i < mid {
        assert JavaStrings.Le(a[i], a[mid]);
      }
    }
  }

  lemma AboveMidMisses(a: seq<string>, key: string, mid: nat, hi: nat)
    requires mid < hi <= |a| && IdsSorted(a) && JavaStrings.Compare(a[mid], key) > 0
    ensures forall i :: mid <= i < hi ==> a[i] != key
  {
    forall i | mid <= i < hi
      ensures a[i] != key
    {
      if mid < i {
        assert JavaStrings.Le(a[mid], a[i]);
      } else {
        JavaStrings.CompareZeroIffEqual(a[mid], key);
      }
    }
  }

  /** The group a tile id refers to: the defined group with exactly that id, or none. */
  function Resolve(sortedIds: seq<string>, id: string): (r: Option<string>)
    requires IdsSorted(sortedIds)
    ensures r.Some? <==> id in sortedIds
    ensures r.Some? ==> r.value == id
  {
    var index := BinarySearch(sortedIds, id, 0, |sortedIds|);
    if index >= 0 then Some(sortedIds[index]) else None
  }
}

=== FILE: tile_set_node.dfy ===
/** The tile set node: validation of the tiling parameters against the loaded images, the
    change-guarded setters, and the recomputation of the convex hulls that reconciles the
    per-tile collision group store. The hull extraction itself is a parameter. */
module TileSetNode {
  import opened Wrappers
  import JavaInts
  import TileSetChildren

  /** Number of planes handed to the hull extraction. */
  const PLANE_COUNT: int := 16

  /** A decoded image, known by its pixel dimensions. */
  datatype Image = Image(width: int, height: int)

  /** One convex hull: its first point and its point count in the shared point buffer. */
  datatype Hull = Hull(index: int, count: int)

  /** What the hull extraction yields: one hull per tile, row-major, and the point buffer. */
  datatype HullResult = HullResult(hulls: seq<Hull>, points: seq<real>)

  /** The hull extraction over the collision image's alpha channel, given the image, the
      plane count, and tile width, height, margin and spacing. */
  type HullExtractor = (Image, int, int, int, int, int) -> HullResult

  /** Tiles along one axis, given tile size, image size, margin and spacing. */
  type AxisTileCount = (int, int, int, int) -> int

  /** Everything the node's validation and recomputation read: the properties, whether the
      node is attached to a scene model, and the images loaded for the two paths. */
  datatype Config = Config(
    image: string,
    collision: string,
    materialTag: string,
    tileWidth: int,
    tileHeight: int,
    tileMargin: int,
    tileSpacing: int,
    hasModel: bool,
    loadedImage: Option<Image>,
    loadedCollision: Option<Image>)

  /** The node: its configuration, its children, and the derived data. `groupStore` holds,
      per tile slot, the id of the assigned collision group or none; `visibleCount` is how
      many slots are shown, which may be fewer than the store holds. */
  datatype TileSet = TileSet(
    config: Config,
    children: seq<TileSetChildren.Child>,
    groupStore: seq<Option<string>>,
    visibleCount: nat,
    hulls: seq<Hull>,
    points: seq<real>)

  /** A new node: no images, no groups, no derived data. */
  function Init(hasModel: bool): (s: TileSet)
    ensures s.groupStore == [] && s.visibleCount == 0 && s.hulls == [] && s.points == []
    ensures s.children == []
    ensures s.config == Config("", "", "", 0, 0, 0, 0, hasModel, None, None)
  {
    TileSet(Config("", "", "", 0, 0, 0, 0, hasModel, None, None), [], [], 0, [], [])
  }

  // ---- validation ----

  datatype Property = ImageProperty | CollisionProperty

  /** A validation status. EmptyInfo is an INFO status; the rest other than Ok are errors. */
  datatype Status =
    | Ok
    | EmptyInfo(property: Property)
    | DiffImgDims(imageWidth: int, imageHeight: int, collisionWidth: int, collisionHeight: int)
    | TileWidthGtImg(totalTileWidth: int, imageWidth: int)
    | TileHeightGtImg(totalTileHeight: int, imageHeight: int)

  /** Both images are loaded and their dimensions differ. */
  predicate ImagesDisagree(c: Config) {
    && c.loadedImage.Some? && c.loadedCollision.Some?
    && (c.loadedImage.value.width != c.loadedCollision.value.width
        || c.loadedImage.value.height != c.loadedCollision.value.height)
  }

  /** The image the tile dimensions are measured against: the colour image when loaded,
      else the collision image. */
  function MeasuredImage(c: Config): (r: Option<Image>)
    ensures r.None? <==> c.loadedImage.None? && c.loadedCollision.None?
    ensures c.loadedImage.Some? ==> r == c.loadedImage
    ensures c.loadedImage.None? ==> r == c.loadedCollision
  {
    if c.loadedImage.Some? then c.loadedImage else c.loadedCollision
  }

  predicate WidthFits(c: Config, img: Image) {
    c.tileWidth + c.tileMargin <= img.width
  }

  predicate HeightFits(c: Config, img: Image) {
    c.tileHeight + c.tileMargin <= img.height
  }

  /** verifyImageDimensions: an error exactly when both images are loaded and differ in
      width or height; the error carries both pairs of dimensions. */
  function VerifyImageDimensions(c: Config): (r: Status)
    ensures r.Ok? || r.DiffImgDims?
    ensures r.DiffImgDims? <==> ImagesDisagree(c)
    ensures r.DiffImgDims? ==>
      r == DiffImgDims(c.loadedImage.value.width, c.loadedImage.value.height,
                       c.loadedCollision.value.width, c.loadedCollision.value.height)
  {
    if c.loadedImage.Some? && c.loadedCollision.Some? then
      var img := c.loadedImage.value;
      var col := c.loadedCollision.value;
      if img.width != col.width || img.height != col.height then
        DiffImgDims(img.width, img.height, col.width, col.height)
      else Ok
    else Ok
  }

  /** verifyTileDimensions: with no image loaded, or nothing to check, Ok. Otherwise the
      requested axes are checked against the measured image, width first. */
  function VerifyTileDimensions(c: Config, verifyWidth: bool, verifyHeight: bool): (r: Status)
    ensures r.Ok? || r.TileWidthGtImg? || r.TileHeightGtImg?
    ensures MeasuredImage(c).None? ==> r.Ok?
    ensures MeasuredImage(c).Some? ==>
      var img := MeasuredImage(c).value;
      && (r.TileWidthGtImg? <==> verifyWidth && !WidthFits(c, img))
      && (r.TileHeightGtImg? <==>
            verifyHeight && !HeightFits(c, img) && !(verifyWidth && !WidthFits(c, img)))
      && (r.TileWidthGtImg? ==> r == TileWidthGtImg(c.tileWidth + c.tileMargin, img.width))
      && (r.TileHeightGtImg? ==> r == TileHeightGtImg(c.tileHeight + c.tileMargin, img.height))
  {
    if (verifyWidth || verifyHeight) && (c.loadedImage.Some? || c.loadedCollision.Some?) then
      var img := if c.loadedImage.Some? then c.loadedImage.value else c.loadedCollision.value;
      var totalTileWidth := c.tileWidth + c.tileMargin;
      var totalTileHeight := c.tileHeight + c.tileMargin;
      if verifyWidth && totalTileWidth > img.width then
        TileWidthGtImg(totalTileWidth, img.width)
      else if verifyHeight && totalTileHeight > img.height then
        TileHeightGtImg(totalTileHeight, img.height)
      else Ok
    else Ok
  }

  /** The validator shared by the image and collision properties: empty paths give an INFO
      status, then image dimensions are checked before tile dimensions. */
  function ValidateImages(c: Config, property: Property): (r: Status)
    ensures c.image == "" && c.collision == "" ==> r == EmptyInfo(property)
    ensures (c.image != "" || c.collision != "") && ImagesDisagree(c) ==> r == VerifyImageDimensions(c)
    ensures (c.image != "" || c.collision != "") && !ImagesDisagree(c) ==>
      r == VerifyTileDimensions(c, true, true)
  {
    if c.image == "" && c.collision == "" then EmptyInfo(property)
    else
      var status := VerifyImageDimensions(c);
      if !status.Ok? then status else VerifyTileDimensions(c, true, true)
  }

  /** What the image and collision validators accept: some path is set, loaded images agree
      in size, and a tile plus margin fits the measured image on both axes. */
  predicate ImagesFit(c: Config) {
    && (c.image != "" || c.collision != "")
    && !ImagesDisagree(c)
    && (MeasuredImage(c).Some? ==>
          WidthFits(c, MeasuredImage(c).value) && HeightFits(c, MeasuredImage(c).value))
  }

  /** validateImage: Ok exactly when the images fit; an INFO status names the image
      property. */
  function ValidateImage(c: Config): (r: Status)
    ensures r.Ok? <==> ImagesFit(c)
    ensures r.EmptyInfo? ==> r.property == ImageProperty
    ensures c.image == "" && c.collision == "" ==> r == EmptyInfo(ImageProperty)
    ensures (c.image != "" || c.collision != "") && ImagesDisagree(c) ==> r == VerifyImageDimensions(c)
    ensures (c.image != "" || c.collision != "") && !ImagesDisagree(c) ==>
      r == VerifyTileDimensions(c, true, true)
  {
    ValidateImagesOkMeansTilesFit(c, ImageProperty);
    ValidateImages(c, ImageProperty)
  }

  /** validateCollision: the same check as validateImage; an INFO status names the
      collision property. */
  function ValidateCollision(c: Config): (r: Status)
    ensures r.Ok? <==> ImagesFit(c)
    ensures r.EmptyInfo? ==> r.property == CollisionProperty
    ensures c.image == "" && c.collision == "" ==> r == EmptyInfo(CollisionProperty)
    ensures (c.image != "" || c.collision != "") && ImagesDisagree(c) ==> r == VerifyImageDimensions(c)
    ensures (c.image != "" || c.collision != "") && !ImagesDisagree(c) ==>
      r == VerifyTileDimensions(c, true, true)
  {
    ValidateImagesOkMeansTilesFit(c, CollisionProperty);
    ValidateImages(c, CollisionProperty)
  }

  /** validateImage and validateCollision accept a configuration exactly when some path is
      set, loaded images agree in size, and a tile plus margin fits the measured image on
      both axes. */
  lemma ValidateImagesOkMeansTilesFit(c: Config, property: Property)
    ensures ValidateImages(c, property).Ok? <==>
      && (c.image != "" || c.collision != "")
      && !ImagesDisagree(c)
      && (MeasuredImage(c).Some? ==>
            WidthFits(c, MeasuredImage(c).value) && HeightFits(c, MeasuredImage(c).value))
  {
  }

  /** validateTileWidth: checks the width axis only; the tile height plays no part. */
  function ValidateTileWidth(c: Config): (r: Status)
    ensures r.Ok? || r.TileWidthGtImg?
    ensures r.Ok? <==> MeasuredImage(c).None? || WidthFits(c, MeasuredImage(c).value)
  {
    VerifyTileDimensions(c, true, false)
  }

  /** validateTileHeight: checks the height axis only; the tile width plays no part. */
  function ValidateTileHeight(c: Config): (r: Status)
    ensures r.Ok? || r.TileHeightGtImg?
    ensures r.Ok? <==> MeasuredImage(c).None? || HeightFits(c, MeasuredImage(c).value)
  {
    VerifyTileDimensions(c, false, true)
  }

  /** validateTileMargin: a margin of 0 or less is always accepted; a positive one is
      checked on both axes. */
  function ValidateTileMargin(c: Config): (r: Status)
    ensures c.tileMargin <= 0 ==> r.Ok?
    ensures c.tileMargin > 0 ==>
      (r.Ok? <==> MeasuredImage(c).None?
                  || (WidthFits(c, MeasuredImage(c).value) && HeightFits(c, MeasuredImage(c).value)))
  {
    if c.tileMargin > 0 then VerifyTileDimensions(c, true, true) else Ok
  }

  /** The node's overall validity: every property validator above is Ok, the range bounds
      on the tiling properties hold, and the material tag is not empty. */
  predicate Valid(c: Config)
    ensures Valid(c) <==>
      && ImagesFit(c)
      && c.tileWidth >= 1 && c.tileHeight >= 1 && c.tileMargin >= 0 && c.tileSpacing >= 0
      && |c.materialTag| > 0
  {
    && ValidateImage(c).Ok?
    && ValidateCollision(c).Ok?
    && ValidateTileWidth(c).Ok?
    && ValidateTileHeight(c).Ok?
    && ValidateTileMargin(c).Ok?
    && c.tileWidth >= 1 && c.tileHeight >= 1 && c.tileMargin >= 0 && c.tileSpacing >= 0
    && |c.materialTag| > 0
  }

  /** What validity guarantees about a valid configuration with a collision image: the two
      images agree in size and a tile plus margin fits the collision image on both axes. */
  lemma ValidCollisionImageFits(c: Config)
    requires Valid(c) && c.loadedCollision.Some?
    ensures c.loadedImage.Some? ==> c.loadedImage.value == c.loadedCollision.value
    ensures WidthFits(c, c.loadedCollision.value) && HeightFits(c, c.loadedCollision.value)
    ensures c.tileWidth >= 1 && c.tileHeight >= 1 && c.tileMargin >= 0 && c.tileSpacing >= 0
  {
    ValidateImagesOkMeansTilesFit(c, ImageProperty);
  }

  // ---- tile count ----

  /** calculateTileCount: tiles per row times tiles per column of the measured image, and 0
      when no image with positive dimensions is loaded. */
  function CalculateTileCount(c: Config, perAxis: AxisTileCount): (r: int)
    ensures MeasuredImage(c).None? ==> r == 0
    ensures MeasuredImage(c).Some? ==>
      var img := MeasuredImage(c).value;
      if img.width > 0 && img.height > 0 then
        r == perAxis(c.tileWidth, img.width, c.tileMargin, c.tileSpacing)
             * perAxis(c.tileHeight, img.height, c.tileMargin, c.tileSpacing)
      else r == 0
  {
    var dims :=
      if c.loadedImage.Some? then (c.loadedImage.value.width, c.loadedImage.value.height)
      else if c.loadedCollision.Some? then (c.loadedCollision.value.width, c.loadedCollision.value.height)
      else (0, 0);
    if dims.0 > 0 && dims.1 > 0 then
      perAxis(c.tileWidth, dims.0, c.tileMargin, c.tileSpacing)
      * perAxis(c.tileHeight, dims.1, c.tileMargin, c.tileSpacing)
    else 0
  }

  /** The extraction finds one hull per tile of the collision image: tiles per row times
      tiles per column, as the per-axis count gives them. */
  predicate ExtractionCountsTiles(c: Config, extract: HullExtractor, perAxis: AxisTileCount) {
    c.loadedCollision.Some? ==>
      var img := c.loadedCollision.value;
      |extract(img, PLANE_COUNT, c.tileWidth, c.tileHeight, c.tileMargin, c.tileSpacing).hulls|
        == perAxis(c.tileWidth, img.width, c.tileMargin, c.tileSpacing)
           * perAxis(c.tileHeight, img.height, c.tileMargin, c.tileSpacing)
  }

  // ---- recomputation ----

  /** Whether recomputation takes the extraction path. */
  predicate Recomputes(c: Config) {
    c.hasModel && Valid(c) && c.loadedCollision.Some?
  }

  function Extract(c: Config, extract: HullExtractor): HullResult
    requires c.loadedCollision.Some?
  {
    extract(c.loadedCollision.value, PLANE_COUNT, c.tileWidth, c.tileHeight, c.tileMargin,
            c.tileSpacing)
  }

  function Max(a: int, b: int): int {
    if a < b then b else a
  }

  /** The store extended with empty slots up to at least n; existing slots are kept. */
  function Grow(store: seq<Option<string>>, n: int): (r: seq<Option<string>>)
    ensures |r| == Max(|store|, n)
    ensures r[..|store|] == store
    ensures forall i :: |store| <= i < |r| ==> r[i].None?
  {
    if n <= |store| then store else store + seq(n - |store|, _ => None)
  }

  /** One store extends another: at least as long and equal on the shorter one's slots. */
  predicate StoreExtends(a: seq<Option<string>>, b: seq<Option<string>>) {
    |a| <= |b| && b[..|a|] == a
  }

  /** updateConvexHulls. On the extraction path with n tiles: the hulls and points are the
      extraction's, n slots are visible, and the store grows to max(old length, n) keeping its
      slots, new slots empty. Otherwise hulls and points are cleared and nothing is visible,
      but the store is kept as it was. Configuration and children are never touched. */
  function UpdateConvexHulls(s: TileSet, extract: HullExtractor): (r: TileSet)
    ensures r.config == s.config && r.children == s.children
    ensures StoreExtends(s.groupStore, r.groupStore)
    ensures Recomputes(s.config) ==>
      var n := |Extract(s.config, extract).hulls|;
      && r.hulls == Extract(s.config, extract).hulls
      && r.points == Extract(s.config, extract).points
      && r.visibleCount == n
      && |r.groupStore| == Max(|s.groupStore|, n)
      && forall i :: |s.groupStore| <= i < |r.groupStore| ==> r.groupStore[i].None?
    ensures !Recomputes(s.config) ==>
      r.hulls == [] && r.points == [] && r.visibleCount == 0 && r.groupStore == s.groupStore
  {
    if s.config.hasModel && Valid(s.config) && s.config.loadedCollision.Some? then
      var result := Extract(s.config, extract);
      var tileCount := |result.hulls|;
      s.(hulls := result.hulls,
         groupStore := Grow(s.groupStore, tileCount),
         visibleCount := tileCount,
         points := result.points)
    else
      s.(points := [], hulls := [], visibleCount := 0)
  }

  /** The derived data is a function of the configuration: recomputing a second time
      changes nothing. */
  lemma UpdateConvexHullsIdempotent(s: TileSet, extract: HullExtractor)
    ensures UpdateConvexHulls(UpdateConvexHulls(s, extract), extract)
            == UpdateConvexHulls(s, extract)
  {
  }

  /** The derived data is up to date with the configuration. */
  predicate UpToDate(s: TileSet, extract: HullExtractor) {
    UpdateConvexHulls(s, extract) == s
  }

  /** A new node's empty derived data is already what recomputation gives: with no path set
      the node is not valid, so nothing is extracted. */
  lemma InitUpToDate(hasModel: bool, extract: HullExtractor)
    ensures !Valid(Init(hasModel).config)
    ensures UpToDate(Init(hasModel), extract)
  {
    assert ValidateImage(Init(hasModel).config) == EmptyInfo(ImageProperty);
  }

  /** When the extraction counts tiles as calculateTileCount does, the recomputation shows
      exactly calculateTileCount slots: a valid configuration measures against an image of
      the collision image's size, which a tile fits and so has positive dimensions. */
  lemma VisibleCountIsTileCount(s: TileSet, extract: HullExtractor, perAxis: AxisTileCount)
    requires Recomputes(s.config) && ExtractionCountsTiles(s.config, extract, perAxis)
    ensures UpdateConvexHulls(s, extract).visibleCount == CalculateTileCount(s.config, perAxis)
    ensures |GetTileCollisionGroups(UpdateConvexHulls(s, extract))|
            == CalculateTileCount(s.config, perAxis)
  {
    ValidCollisionImageFits(s.config);
  }

  // ---- collision group ids ----

  function SlotId(store: seq<Option<string>>, i: nat): string {
    if i < |store| && store[i].Some? then store[i].value else ""
  }

  /** getTileCollisionGroups: one id per visible slot, "" for an empty slot or one past the
      end of the store. */
  function GetTileCollisionGroups(s: TileSet): (r: seq<string>)
    ensures |r| == s.visibleCount
    ensures forall i :: 0 <= i < |r| ==> r[i] == SlotId(s.groupStore, i)
  {
    seq(s.visibleCount, i requires 0 <= i < s.visibleCount => SlotId(s.groupStore, i))
  }

  /** setTileCollisionGroups: each id resolves to the defined collision group with exactly
      that id, or to none. The store is replaced by the resolved list (possibly shorter than
      before) and then recomputation may grow it again. */
  function SetTileCollisionGroups(s: TileSet, ids: seq<string>, extract: HullExtractor): (r: TileSet)
    ensures |r.groupStore| >= |ids|
    ensures forall i :: 0 <= i < |ids| ==>
      r.groupStore[i] == (if TileSetChildren.CollisionGroup(ids[i]) in s.children
                          then Some(ids[i]) else None)
    ensures !Recomputes(s.config) ==>
      && |r.groupStore| == |ids| && r.visibleCount == 0 && r.hulls == [] && r.points == []
    ensures Recomputes(s.config) ==>
      var n := |Extract(s.config, extract).hulls|;
      && |r.groupStore| == Max(|ids|, n)
      && (forall i :: |ids| <= i < |r.groupStore| ==> r.groupStore[i].None?)
      && r.visibleCount == n
      && r.hulls == Extract(s.config, extract).hulls
      && r.points == Extract(s.config, extract).points
    ensures r.config == s.config && r.children == s.children
  {
    var sortedIds := TileSetChildren.SortedGroupIds(s.children);
    var store := seq(|ids|, i requires 0 <= i < |ids| => TileSetChildren.Resolve(sortedIds, ids[i]));
    UpdateConvexHulls(s.(groupStore := store), extract)
  }

  /** Writing an id list of the visible length and reading it back yields every id that
      names a defined collision group, and "" in place of the others. */
  lemma SetThenGetTileCollisionGroups(s: TileSet, ids: seq<string>, extract: HullExtractor)
    requires Recomputes(s.config) && |Extract(s.config, extract).hulls| == |ids|
    ensures var got := GetTileCollisionGroups(SetTileCollisionGroups(s, ids, extract));
      && |got| == |ids|
      && forall i :: 0 <= i < |ids| ==>
           got[i] == (if TileSetChildren.CollisionGroup(ids[i]) in s.children then ids[i] else "")
  {
  }

  // ---- setters ----

  datatype TilingField = TileWidth | TileHeight | TileMargin | TileSpacing

  function Tiling(c: Config, f: TilingField): int {
    match f
    case TileWidth => c.tileWidth
    case TileHeight => c.tileHeight
    case TileMargin => c.tileMargin
    case TileSpacing => c.tileSpacing
  }

  function WithTiling(c: Config, f: TilingField, v: int): (r: Config)
    ensures Tiling(r, f) == v
    ensures forall g :: g != f ==> Tiling(r, g) == Tiling(c, g)
    ensures Tiling(c, f) == v ==> r == c
    ensures r.(tileWidth := c.tileWidth, tileHeight := c.tileHeight,
               tileMargin := c.tileMargin, tileSpacing := c.tileSpacing) == c
  {
    match f
    case TileWidth => c.(tileWidth := v)
    case TileHeight => c.(tileHeight := v)
    case TileMargin => c.(tileMargin := v)
    case TileSpacing => c.(tileSpacing := v)
  }

  /** setTileWidth, setTileHeight, setTileMargin, setTileSpacing: the current value changes
      nothing; a new value is stored and the derived data recomputed. */
  function SetTiling(s: TileSet, f: TilingField, v: int, extract: HullExtractor): (r: TileSet)
    ensures Tiling(s.config, f) == v ==> r == s
    ensures Tiling(r.config, f) == v
    ensures r.config == WithTiling(s.config, f, v) && r.children == s.children
    ensures Tiling(s.config, f) != v ==>
      r == UpdateConvexHulls(s.(config := WithTiling(s.config, f, v)), extract)
    ensures Tiling(s.config, f) != v ==> UpToDate(r, extract)
    ensures StoreExtends(s.groupStore, r.groupStore)
  {
    if Tiling(s.config, f) == v then s
    else
      UpdateConvexHullsIdempotent(s.(config := WithTiling(s.config, f, v)), extract);
      UpdateConvexHulls(s.(config := WithTiling(s.config, f, v)), extract)
  }

  /** The image a path loads to: nothing for an empty path or a node without a scene
      model, otherwise what the loader yields (none when loading fails). */
  function LoadImage(hasModel: bool, path: string, load: string -> Option<Image>): (r: Option<Image>)
    ensures path == "" || !hasModel ==> r.None?
    ensures path != "" && hasModel ==> r == load(path)
  {
    if path != "" && hasModel then load(path) else None
  }

  /** setImage: the current path changes nothing; a new path drops the loaded image, loads
      the new one when the path is not empty, and recomputes even when loading failed. */
  function SetImage(s: TileSet, path: string, load: string -> Option<Image>,
                    extract: HullExtractor): (r: TileSet)
    ensures s.config.image == path ==> r == s
    ensures s.config.image != path ==>
      && r.config == s.config.(image := path,
                               loadedImage := LoadImage(s.config.hasModel, path, load))
      && UpToDate(r, extract)
    ensures s.config.image != path ==>
      r == UpdateConvexHulls(s.(config := r.config), extract)
    ensures r.children == s.children
    ensures StoreExtends(s.groupStore, r.groupStore)
  {
    if s.config.image == path then s
    else
      var c := s.config.(image := path, loadedImage := LoadImage(s.config.hasModel, path, load));
      UpdateConvexHullsIdempotent(s.(config := c), extract);
      UpdateConvexHulls(s.(config := c), extract)
  }

  /** setCollision: as setImage, for the collision image. */
  function SetCollision(s: TileSet, path: string, load: string -> Option<Image>,
                        extract: HullExtractor): (r: TileSet)
    ensures s.config.collision == path ==> r == s
    ensures s.config.collision != path ==>
      && r.config == s.config.(collision := path,
                               loadedCollision := LoadImage(s.config.hasModel, path, load))
      && UpToDate(r, extract)
    ensures s.config.collision != path ==>
      r == UpdateConvexHulls(s.(config := r.config), extract)
    ensures r.children == s.children
    ensures StoreExtends(s.groupStore, r.groupStore)
  {
    if s.config.collision == path then s
    else
      var c := s.config.(collision := path,
                         loadedCollision := LoadImage(s.config.hasModel, path, load));
      UpdateConvexHullsIdempotent(s.(config := c), extract);
      UpdateConvexHulls(s.(config := c), extract)
  }

  /** setMaterialTag: unguarded, and it does not recompute, although the tag takes part in
      validity. */
  function SetMaterialTag(s: TileSet, tag: string): (r: TileSet)
    ensures r.config.materialTag == tag
    ensures r.config.(materialTag := s.config.materialTag) == s.config
    ensures r.children == s.children
    ensures r.groupStore == s.groupStore && r.visibleCount == s.visibleCount
    ensures r.hulls == s.hulls && r.points == s.points
  {
    s.(config := s.config.(materialTag := tag))
  }

  /** childAdded: the new child is added and the children re-sorted. */
  function AddChild(s: TileSet, child: TileSetChildren.Child): (r: TileSet)
    ensures TileSetChildren.Sorted(r.children)
    ensures multiset(r.children) == multiset(s.children) + multiset{child}
    ensures r == s.(children := r.children)
  {
    s.(children := TileSetChildren.SortChildren(s.children + [child]))
  }

  // ---- recomputation round trips ----

  /** Moving to another configuration and back recomputes the visible ids, hulls and points
      the node had before, whatever the intermediate configuration's tile count: slots hidden
      by a smaller count are kept in the store and shown again. */
  lemma ReconfigureRoundTrip(s: TileSet, other: Config, extract: HullExtractor)
    requires UpToDate(s, extract)
    ensures var t := UpdateConvexHulls(s.(config := other), extract);
      var u := UpdateConvexHulls(t.(config := s.config), extract);
      && GetTileCollisionGroups(u) == GetTileCollisionGroups(s)
      && u.visibleCount == s.visibleCount && u.hulls == s.hulls && u.points == s.points
      && StoreExtends(s.groupStore, u.groupStore)
  {
    var t := UpdateConvexHulls(s.(config := other), extract);
    var u := UpdateConvexHulls(t.(config := s.config), extract);
    if Recomputes(s.config) {
      assert s.visibleCount <= |s.groupStore|;
      forall i | 0 <= i < s.visibleCount
        ensures SlotId(u.groupStore, i) == SlotId(s.groupStore, i)
      {
        assert u.groupStore[..|t.groupStore|] == t.groupStore;
        assert t.groupStore[..|s.groupStore|] == s.groupStore;
        assert u.groupStore[i] == t.groupStore[i] == s.groupStore[i];
      }
    }
    assert StoreExtends(s.groupStore, u.groupStore) by {
      assert u.groupStore[..|t.groupStore|] == t.groupStore;
      assert t.groupStore[..|s.groupStore|] == s.groupStore;
      assert u.groupStore[..|s.groupStore|] == t.groupStore[..|s.groupStore|];
    }
  }

  /** Changing a tiling property and changing it back shows the same collision group ids,
      hulls and points as before, even when the intermediate value left fewer tiles. */
  lemma TilingRevertRestoresGroups(s: TileSet, f: TilingField, v: int, extract: HullExtractor)
    requires UpToDate(s, extract)
    ensures var u := SetTiling(SetTiling(s, f, v, extract), f, Tiling(s.config, f), extract);
      && GetTileCollisionGroups(u) == GetTileCollisionGroups(s)
      && u.visibleCount == s.visibleCount && u.hulls == s.hulls && u.points == s.points
      && u.config == s.config
  {
    if Tiling(s.config, f) != v {
      var other := WithTiling(s.config, f, v);
      var t := UpdateConvexHulls(s.(config := other), extract);
      assert WithTiling(other, f, Tiling(s.config, f)) == s.config;
      ReconfigureRoundTrip(s, other, extract);
    }
  }

  // ---- the node as a state machine ----

  datatype Input =
    | OnSetImage(path: string)
    | OnSetCollision(path: string)
    | OnSetTiling(field: TilingField, value: int)
    | OnSetMaterialTag(tag: string)
    | OnAddChild(child: TileSetChildren.Child)
    | OnRecompute

  function Step(s: TileSet, i: Input, load: string -> Option<Image>, extract: HullExtractor): TileSet {
    match i
    case OnSetImage(path) => SetImage(s, path, load, extract)
    case OnSetCollision(path) => SetCollision(s, path, load, extract)
    case OnSetTiling(f, v) => SetTiling(s, f, v, extract)
    case OnSetMaterialTag(tag) => SetMaterialTag(s, tag)
    case OnAddChild(child) => AddChild(s, child)
    case OnRecompute => UpdateConvexHulls(s, extract)
  }

  function Run(s: TileSet, inputs: seq<Input>, load: string -> Option<Image>,
               extract: HullExtractor): TileSet
    decreases |inputs|
  {
    if |inputs| == 0 then s else Run(Step(s, inputs[0], load, extract), inputs[1..], load, extract)
  }

  lemma StoreExtendsTransitive(a: seq<Option<string>>, b: seq<Option<string>>, c: seq<Option<string>>)
    requires StoreExtends(a, b) && StoreExtends(b, c)
    ensures StoreExtends(a, c)
  {
    assert c[..|a|] == c[..|b|][..|a|];
  }

  /** Whatever sequence of property edits, child additions and recomputations the node goes
      through, the collision group store only grows and every slot keeps its group: only an
      explicit setTileCollisionGroups can shorten or rewrite it. */
  lemma {:induction false} StoreOnlyGrows(s: TileSet, inputs: seq<Input>,
                                          load: string -> Option<Image>, extract: HullExtractor)
    ensures StoreExtends(s.groupStore, Run(s, inputs, load, extract).groupStore)
    decreases |inputs|
  {
    if |inputs| > 0 {
      var t := Step(s, inputs[0], load, extract);
      assert StoreExtends(s.groupStore, t.groupStore);
      StoreOnlyGrows(t, inputs[1..], load, extract);
      StoreExtendsTransitive(s.groupStore, t.groupStore, Run(t, inputs[1..], load, extract).groupStore);
    }
  }

  // ---- tile dimension check with Java int arithmetic ----

  /** The configuration's tiling properties are Java ints. */
  predicate Int32Tiling(c: Config) {
    JavaInts.IsInt32(c.tileWidth) && JavaInts.IsInt32(c.tileHeight)
    && JavaInts.IsInt32(c.tileMargin)
  }

  /** verifyTileDimensions as written: the sums tile size + margin are Java int additions,
      which wrap around past 2^31 - 1. */
  function VerifyTileDimensionsAsWritten(c: Config, verifyWidth: bool, verifyHeight: bool): (r: Status)
    requires Int32Tiling(c)
    ensures r.Ok? || r.TileWidthGtImg? || r.TileHeightGtImg?
    ensures MeasuredImage(c).None? ==> r.Ok?
    ensures MeasuredImage(c).Some? ==>
      var img := MeasuredImage(c).value;
      var totalTileWidth := JavaInts.Add32(c.tileWidth, c.tileMargin);
      var totalTileHeight := JavaInts.Add32(c.tileHeight, c.tileMargin);
      && (r.TileWidthGtImg? <==> verifyWidth && totalTileWidth > img.width)
      && (r.TileHeightGtImg? <==>
            verifyHeight && totalTileHeight > img.height
            && !(verifyWidth && totalTileWidth > img.width))
      && (r.TileWidthGtImg? ==> r == TileWidthGtImg(totalTileWidth, img.width))
      && (r.TileHeightGtImg? ==> r == TileHeightGtImg(totalTileHeight, img.height))
    ensures JavaInts.IsInt32(c.tileWidth + c.tileMargin)
            && JavaInts.IsInt32(c.tileHeight + c.tileMargin) ==>
      r == VerifyTileDimensions(c, verifyWidth, verifyHeight)
  {
    if (verifyWidth || verifyHeight) && (c.loadedImage.Some? || c.loadedCollision.Some?) then
      var img := if c.loadedImage.Some? then c.loadedImage.value else c.loadedCollision.value;
      var totalTileWidth := JavaInts.Add32(c.tileWidth, c.tileMargin);
      var totalTileHeight := JavaInts.Add32(c.tileHeight, c.tileMargin);
      if verifyWidth && totalTileWidth > img.width then
        TileWidthGtImg(totalTileWidth, img.width)
      else if verifyHeight && totalTileHeight > img.height then
        TileHeightGtImg(totalTileHeight, img.height)
      else Ok
    else Ok
  }

  /** A tile width of 2^31 - 1 with a margin of 1 wraps the sum to -2^31, so the check as
      written accepts a tile far wider than a 64-pixel image; the exact check rejects it. */
  lemma TileWidthOverflowPassesCheck()
    ensures var c := Config("a.png", "", "m", JavaInts.INT_MAX, 16, 1, 0, true,
                            Some(Image(64, 64)), None);
      && VerifyTileDimensionsAsWritten(c, true, false) == Ok
      && VerifyTileDimensions(c, true, false) == TileWidthGtImg(0x8000_0000, 64)
  {
    var c := Config("a.png", "", "m", JavaInts.INT_MAX, 16, 1, 0, true,
                    Some(Image(64, 64)), None);
    assert JavaInts.Add32(c.tileWidth, c.tileMargin) == JavaInts.INT_MIN;
  }
}

=== FILE: wrappers.dfy ===
/** The Option datatype stands for a nullable Java reference. */
module Wrappers {

  datatype Option<+T> = None | Some(value: T)
}
